=== FILE: README.md ===
# Shoe store inventory — a Dafny model

The system is the back office and storefront of a small shoe shop. A MySQL
database holds two tables:

- `products`: title, brand, price and image.
- `product_sizes`: one stock count per product and size label. A foreign key
  with ON DELETE CASCADE links it to `products`, and `(product_id, size)` is
  unique.

Two revisions of the Express server expose it:

- `server.js` is the current one. It checks every admin request, runs stock
  batches and product creation in a transaction, and protects a product's
  last size.
- `backend/server.js` is the older one. It runs its statements one by one,
  without validation or a transaction.

After every successful change, each revision broadcasts the whole product
list over Socket.IO (`stock_updated` or `products_updated`).

The browser script `backend/public/app.js` handles the customer and admin
side. It:

- filters the catalogue by text and brand;
- lets a customer pick a size and open a WhatsApp chat;
- keeps an admin stock panel whose unsaved edits survive a broadcast;
- builds the stock batch and the new-product request;
- validates and sanitises data;
- queues notifications;
- retries failed loads with exponential backoff.

The model has eight modules:

| file | module | what it holds |
|---|---|---|
| `wrappers.dfy` | `Wrappers` | `Option` |
| `text.dfy` | `Text` | JavaScript's `trim`, ASCII lower-casing, substring search, the order of label strings, decimal text and `parseInt` |
| `catalog.dfy` | `Catalog` | the two tables as maps, the product list each revision reads, and the admin counters |
| `inventory.dfy` | `Inventory` | `server.js`'s admin routes, as the class `InventoryService`, whose methods change the tables and the broadcast log |
| `legacy_inventory.dfy` | `LegacyInventory` | the same routes of `backend/server.js`, as the class `LegacyService` |
| `storefront.dfy` | `Storefront` | the browser's pure decisions: filter, brand menu, buy button, product validation, sanitising, the stock panel's clamp and batch, and the new-product form |
| `client_state.dfy` | `ClientState` | the page state as the class `CatalogClient`: the modal, the grid, and the admin panel reconciled on each broadcast |
| `feedback.dfy` | `Feedback` | the notification queue (the class `Notifier`) and the retry loop |

Prices are whole numbers (cents). Request fields that are `undefined`, or
that parse to `NaN`, are `None`.

## Model

| member | source | states |
|---|---|---|
| Text.Trim | server.js:290 | the result has no leading or trailing white space and is no longer than the input |
| Text.TrimStartCutsSpace | server.js:358-361 | the leading cut is a suffix of the input, and everything cut off is white space |
| Text.TrimEndCutsSpace | server.js:358-361 | the trailing cut is a prefix of the input, and everything cut off is white space |
| Text.TrimCutsSpace | server.js:366 | the trimmed text occurs in the input, and it is empty exactly when the input is all white space (the blank-field check) |
| Text.TrimIdempotent | server.js:382 | trimming twice is trimming once |
| Text.SortStrings | backend/public/app.js:552-558 | the brands come out strictly sorted, and they are exactly the given set |
| Text.ParseIdText | server.js:289 | `parseInt` of an id's decimal text gives back the id, so the dataset round-trip of ids is lossless |
| Catalog.SizesOf | server.js:197-203 | a product's sizes are every row of that product, once each, with its stock, in strictly increasing label order |
| Catalog.ByIdAscending | backend/server.js:168-182 | the older list holds every product once with all its sizes, in increasing id order |
| Catalog.NewestFirst | server.js:182-205 | the current list holds every product once with all its sizes, newest (highest id) first, and each product's sizes sorted by label |
| Catalog.CatalogLength | server.js:642 | a list that reflects the tables has one entry per product |
| Catalog.CountersPartitionRows | server.js:644-645 | every row is counted exactly once as out of stock, low in stock, or neither |
| Catalog.SumCoversStockedRows | server.js:643-644 | when no stock is negative, the total stock is at least the number of rows that are not out of stock |
| Catalog.ListShowsTable | server.js:182-205 | a list that reflects the tables shows every row of `product_sizes` exactly once, with its stock, and no other row |
| Catalog.ListCountsTable | server.js:644-645 | counting the list's stock column by `stock = 0` or by `stock > 0 AND stock < 5` counts exactly the table rows that the SQL query counts |
| Catalog.ListCoversTable | server.js:643 | the list's stock column has one entry per row of `product_sizes` |
| Inventory.UpsertedSemantics | server.js:298-314 | after the batch, each row holds the stock of the last entry that named it, and other rows are untouched |
| Inventory.UpsertIdempotent | server.js:298-314 | applying the same batch twice leaves the table as applying it once |
| Inventory.CleanSizes | server.js:381-384 | every kept label is trimmed and not blank; every size whose trimmed label is not blank is kept, and nothing else is |
| Inventory.InsertedSizes | server.js:419-426 | inserting distinct sizes for a new product adds exactly those rows with their stocks, and nothing else changes |
| Inventory.GrowStockKeepsConsistent | server.js:104-105 | upserting clean rows of existing products keeps the store invariant: the foreign key, ids below the counter, a size per product, clean labels and clean product fields |
| Inventory.CreateKeepsConsistent | server.js:104-105 | a clean product with distinct clean sizes keeps the store invariant, whether or not its title is new |
| Inventory.DeleteKeepsConsistent | server.js:104 | deleting a product and cascading its sizes keeps the store invariant |
| Inventory.RemoveKeepsConsistent | server.js:595-618 | removing a size of a product with another size keeps the store invariant, and drops exactly that label |
| Inventory.StageStockBatch | server.js:284-329 | the transaction commits if and only if every entry is valid and names an existing row or product, and it then leaves the upserted table |
| Inventory.CreateKeepsTitlesUnique | server.js:394-402 | where titles were unique, adding a product whose title is not taken keeps them unique |
| Inventory.StageSizes | server.js:419-426 | the size inserts succeed if and only if the labels are distinct (the unique key), and then leave those rows added |
| Inventory.InventoryService.CurrentList | server.js:182-205 | the broadcast list reflects the tables, newest first |
| Inventory.InventoryService.Stats | server.js:640-645 | the product counter is the number of products; the out-of-stock and low-stock counters are the numbers of table rows with `stock = 0` and with `0 < stock < 5`; the total is the sum of a stock column that lists every row of the table once |
| Inventory.InventoryService.constructor | server.js:82-110 | empty tables, counter at 1, nothing broadcast |
| Inventory.InventoryService.Commit | server.js:317-320 | the committed tables are in force and one broadcast of their list is logged |
| Inventory.InventoryService.UpdateStock | server.js:268-336 | 401 for a wrong password; 400 when `updates` is not an array; 500 with no change when any entry is invalid or names a missing product; otherwise the whole batch is upserted and `stock_updated` broadcast once; the constraints are kept |
| Inventory.InventoryService.CreateProduct | server.js:338-456 | 401, then 400 for a missing or blank field, a bad price, no usable size or a taken title; 500 with no change but a used id for a repeated label; otherwise the product and its cleaned sizes are inserted under the next id and `products_updated` broadcast; unique titles stay unique when requests are served one at a time |
| Inventory.InventoryService.InsertProduct | server.js:404-445 | the transaction succeeds if and only if the labels are distinct; then the product and its rows are added and broadcast; otherwise nothing changes but the used id |
| Inventory.InventoryService.DeleteProduct | server.js:459-495 | 401; 404 for an unknown id; otherwise the product and exactly its sizes are gone and `products_updated` broadcast |
| Inventory.InventoryService.AddSize | server.js:497-565 | 401; 400 for a bad id, a blank label or a negative stock; 404 for an unknown product; 400 for an existing label; otherwise exactly that row is added and broadcast |
| Inventory.InventoryService.RemoveSize | server.js:568-637 | 401; 400 for a bad id or blank label; 404 for a missing row; 400 for the last size; otherwise exactly that row is removed and the product keeps at least one size |
| LegacyInventory.PasswordsAgreeIff | backend/server.js:232 | the two revisions let exactly the same requests through if and only if `ADMIN_PASSWORD` is set and not empty |
| LegacyInventory.PasswordsDisagree | backend/server.js:232 | with the variable unset or empty, the fallback literal opens the older revision and not server.js |
| LegacyInventory.MissingPasswordOpensCurrent | server.js:276 | with the variable unset, a request without a password opens server.js and not the older revision |
| LegacyInventory.DefinedPrefix | backend/server.js:237-243 | the entries that run are exactly those before the first one with an undefined field |
| LegacyInventory.UpdateOnlyKeepsRows | backend/server.js:238-242 | an `UPDATE` batch never adds or removes a row |
| LegacyInventory.UpdateOnlyMatchesUpsert | backend/server.js:238-242 | when every row written exists, the older `UPDATE` batch and the current upsert batch leave the same table |
| LegacyInventory.ApplyUpdates | backend/server.js:237-243 | the statements run until the first undefined field, and the table then holds those updates |
| LegacyInventory.InsertablePrefixMeaning | backend/server.js:279-284 | the sizes inserted are defined and distinct, and the first one not inserted has an undefined field or repeats a label |
| LegacyInventory.InsertSizes | backend/server.js:279-284 | the inserts stop at the first failure, with the earlier rows kept |
| LegacyInventory.LegacyService.CurrentList | backend/server.js:168-182 | the broadcast list reflects the tables in id order |
| LegacyInventory.LegacyService.UpdateStock | backend/server.js:227-261 | 401 unless the expected password; updates until the first undefined field stay written even on the 500; rows are never added; broadcast only on success |
| LegacyInventory.LegacyService.CreateProduct | backend/server.js:264-298 | 401; 500 with nothing written when a product field is undefined; otherwise the product is inserted unvalidated, and the sizes up to the first failure stay even when it answers 500 |
| Storefront.Filter | backend/public/app.js:523-532 | a product is shown if and only if it matches the text (title, brand or a size label) and the brand; nothing else is added |
| Storefront.FilterNothing | backend/public/app.js:1543-1544 | an empty search and brand shows the whole list |
| Storefront.FilterComposes | backend/public/app.js:523-532 | filtering by text and brand is filtering by one and then the other |
| Storefront.FilterKeepsPositions | backend/public/app.js:523-532 | for any list, in any order, the grid is the subsequence at strictly increasing positions that are exactly the positions of the matching products |
| Storefront.FilterKeepsOrder | backend/public/app.js:523-532 | the grid keeps the server's newest-first order |
| Storefront.BrandOptions | backend/public/app.js:545-566 | the menu lists each non-empty brand of the list exactly once, in order |
| Storefront.RestoredBrand | backend/public/app.js:560-565 | the chosen brand is kept when it is still offered, and cleared otherwise |
| Storefront.FindSize | backend/public/app.js:765 | the first size with that label, and None exactly when there is none |
| Storefront.BuyFollowsButton | backend/public/app.js:735-768 | when the button is enabled the click opens the chat; when no stock is negative, the two agree both ways |
| Storefront.NegativeStockOpensChat | backend/public/app.js:739-741 | with a negative stock the button is disabled, yet the click handler would open the chat |
| Storefront.ListingValidIff | backend/public/app.js:1942-1986 | a product from the server passes validation if and only if its price is not negative, it has a size, and no stock is negative |
| Storefront.Sanitize | backend/public/app.js:1988-1995 | a non-string gives ""; a string gives the first min(100, n) characters of its trimmed text with every `<` and `>` removed, where n is that text's length; so the output is at most 100 characters and holds no angle bracket |
| Storefront.StripAnglesAppend | backend/public/app.js:1993 | removing angle brackets from a concatenation removes them from each part |
| Storefront.StripAnglesSnoc | backend/public/app.js:1993 | read left to right, each character is kept exactly when it is not `<` or `>` |
| Storefront.SanitizeKeepsCleanText | backend/public/app.js:1988-1995 | trimmed short text without angle brackets is left as it is |
| Storefront.SanitizeNotIdempotent | backend/public/app.js:1988-1995 | sanitising twice can differ from once ("< x") |
| Storefront.InputEdited | backend/public/app.js:1350-1381 | the typed text read as a number (0 when it does not parse): a number below 0 is replaced by "0" and one above 999 by "999", and then the mark is left as it was; a number within 0..999 is kept and the input is marked changed if and only if it differs from the original number (always, when the original does not parse); the product id, label and original are untouched |
| Storefront.ClampLeavesMarkStale | backend/public/app.js:1357-1365 | the clamp path returns before the comparison, so "-3" typed over an unmarked input whose original is 5 becomes "0" and stays unmarked although 0 differs from 5 |
| Storefront.SendableEntries | backend/public/app.js:1418-1437 | every input with a numeric id and a size gives an entry with its stock (0 when not a number), and every entry comes from such an input |
| Storefront.BuildStockBatch | backend/public/app.js:1399-1450 | no valid data, no changes, or the batch of every sendable input with at least one difference |
| Storefront.SavedBatchAcceptedIff | backend/public/app.js:1399-1472 | the server commits the batch if and only if every sendable input has a product id other than 0 that names an existing product, a label that is not blank once trimmed, and a non-negative stock |
| Storefront.UneditedPanelHasNoChanges | backend/public/app.js:928-968 | a freshly rendered panel has nothing to save |
| Storefront.NewSizesOf | backend/public/app.js:1205-1221 | the sizes sent are the rows with a label, in order, stock 0 when missing |
| Storefront.CollectNewSizes | backend/public/app.js:1203-1221 | it stops at a repeated label (and names it) exactly when the labels are not distinct; otherwise it returns the sizes to send |
| Storefront.PrepareNewProduct | backend/public/app.js:1180-1226 | a missing field, a price that is not positive, a repeated label or no sizes each block the request; otherwise the form and its sizes are sent |
| Storefront.SentLabelsDistinct | backend/public/app.js:1205-1221 | rows whose trimmed labels are distinct send sizes with distinct labels |
| Storefront.CleanSizesKeepsClean | server.js:381-384 | the server's cleaning keeps trimmed, non-blank labels as they are, with stock 0 when missing |
| Storefront.SubmittedFormPassesServerChecks | server.js:352-402 | a form the browser sends passes every server check except the title's uniqueness, and its labels stay distinct, so the inserts cannot break the unique key |
| ClientState.FindProduct | backend/public/app.js:1551 | the product with that id, and None exactly when there is none |
| ClientState.BeforeDash | backend/public/app.js:1598 | the text before the first '-', the whole text when there is none |
| ClientState.DashKeyMisplacesEdit | backend/public/app.js:1583-1607 | with labels "38" and "38-39" both edited, the split key restores the edit of "38-39" onto "38" and loses it |
| ClientState.EditsOf | backend/public/app.js:1585-1591 | the saved edits are keyed by product and size; every input's field is a key, and each key comes from an input |
| ClientState.EditsOfDistinct | backend/public/app.js:1585-1591 | with distinct fields, each input's edit is stored under its own field |
| ClientState.RestoreKeepsEdits | backend/public/app.js:1594-1607 | every input of the new panel whose field was on the old one gets back the old value and mark; the others keep the server's value; the originals are the new panel's |
| ClientState.DashKeySplitsBack | backend/public/app.js:1598 | a key whose product id and label hold no '-' splits back into that id and label |
| ClientState.ApplyEditStep | backend/public/app.js:1597-1607 | one restore step as written, for a field not yet restored, adds that field's edit to the restore by field |
| ClientState.DashKeyAgreesWithoutDash | backend/public/app.js:1580-1607 | when no product id or label holds '-' and the fields are distinct, the restore as written and the restore by field give the same panel |
| ClientState.FieldKeyRestoresBoth | backend/public/app.js:1583-1607 | keying by the (product, size) pair restores both "38" and "38-39" |
| ClientState.RenderedFieldsDistinct | backend/public/app.js:928-968 | a panel rendered from distinct ids and labels has distinct fields |
| ClientState.SaveEdits | backend/public/app.js:1582-1591 | the save pass gives exactly the map of edits |
| ClientState.RestoreEdits | backend/public/app.js:1597-1607 | the restore pass gives exactly the restored panel |
| ClientState.CatalogClient.constructor | backend/public/app.js:14-36 | nothing loaded, nothing open |
| ClientState.CatalogClient.Search | backend/public/app.js:510-532 | the grid shows the list filtered by the lower-cased, trimmed text and the brand |
| ClientState.CatalogClient.OpenProduct | backend/public/app.js:589-597 | an unknown id does nothing; otherwise the product is open with no size selected |
| ClientState.CatalogClient.SelectSize | backend/public/app.js:683-716 | a size that is offered and not sold out is selected, whatever its label (an empty one included), and only inside the modal; any other click leaves the selection as it was |
| ClientState.CatalogClient.CloseProduct | backend/public/app.js:649-662 | the modal closes and the product and size are cleared |
| ClientState.CatalogClient.HandleStockUpdate | backend/public/app.js:115-120 | the new list replaces the old one; the grid keeps the filter; an open modal follows its product, drops a sold-out size, or closes when the product is gone; an open admin panel keeps the edits typed so far, restored by field, which is the restore as written whenever no id or label holds '-' |
| ClientState.CatalogClient.ReconcileModal | backend/public/app.js:1549-1578 | an open modal follows its product in the new list, drops a selected size that is gone or sold out, and closes when the product is gone; a closed modal is left alone |
| ClientState.CatalogClient.ReconcileAdmin | backend/public/app.js:1580-1610 | an open admin panel is rendered from the new list with the edits typed so far restored by field, and that equals the restore as written when no id or label holds '-' and fields are distinct; a closed panel is left alone |
| ClientState.CatalogClient.HandleProductsUpdate | backend/public/app.js:122-128 | the grid shows the whole new list, whatever the filter; the brand menu is rebuilt; the modal and panel are left as they were |
| ClientState.CatalogClient.OpenAdmin | backend/public/app.js:928-975 | one input per size of the current list |
| ClientState.CatalogClient.EditStockInput | backend/public/app.js:1350-1381 | only that input changes, and it ends up holding a number in 0..999 |
| ClientState.CatalogClient.StockSaved | backend/public/app.js:1474-1482 | each value becomes its input's original, every mark is cleared, and the panel closes |
| Feedback.AsWrittenReorders | backend/public/app.js:1619-1693 | as written, showing A, B, C around a hide and a timer displays A, C, B |
| Feedback.StepKeepsOrder | backend/public/app.js:1619-1693 | each step of the corrected queue keeps the notes displayed, pending and queued equal to the notes requested, in order |
| Feedback.RunKeepsOrder | backend/public/app.js:1619-1693 | after any sequence of events, the notes displayed are a prefix of the notes requested |
| Feedback.HideThenFireShowsNext | backend/public/app.js:1678-1692 | hiding a note with others waiting shows the oldest one when the timer fires |
| Feedback.CorrectedKeepsOrder | backend/public/app.js:1619-1693 | on the sequence that reorders as written, the corrected queue displays A, B, C |
| Feedback.Notifier.ShowNote | backend/public/app.js:1619-1676 | the notifier's state takes one corrected step, and the request is recorded |
| Feedback.Notifier.HideNote | backend/public/app.js:1678-1693 | the notifier's state takes one corrected step |
| Feedback.Notifier.TimerFired | backend/public/app.js:1688-1692 | the notifier's state takes one corrected step |
| Feedback.RetryOperation | backend/public/app.js:2076-2091 | at most four calls; it returns the first success; otherwise, after four failures, it fails with the context and the last message; the waits are 1, 2 and 4 seconds |
| Feedback.BackoffTotal | backend/public/app.js:2088 | the waits before call n+1 add up to (2^n - 1) seconds |

## Left out

- Database and network faults are not modelled. This covers a lost
  connection, a failing read after commit, and a failing `fetch` other than
  through the outcomes given to `RetryOperation`.
- MySQL's collation is not modelled. Titles and labels compare exactly, and
  labels sort by character code. VARCHAR lengths are not enforced.
- Prices are whole numbers, so `parseFloat` fractions and DECIMAL(10,2)
  rounding are not modelled.
- `ORDER BY created_at DESC` is modelled as decreasing id: rows created in
  the same second are not modelled.
- Lower-casing and white space cover ASCII only. `parseInt` reads only
  optionally signed decimal digits after leading white space, so hex and
  exponent forms are not modelled.
- The `topProducts` and `stockByBrand` queries of the stats route
  (server.js:647-668) are not modelled. The GET routes for products, the
  auth-verify route and static files are out of scope. The seed data
  (server.js:115-175) is not modelled as an operation; its three products
  share one title, which the store invariant allows.
- The DOM is not modelled: rendering, ARIA, styles, focus, scrolling, lazy
  loading, and the WhatsApp link and window.
- Timers are events. Closing a notification by click or Escape is another
  hide event.
- `renderAdminPanel` also re-renders the new-product tab, and that tab's
  number inputs would be read with the key "undefined-undefined". The model
  keeps only the stock tab's inputs.
- After a save, a `stock_updated` broadcast that arrives before the save's
  response resolves re-renders the panel against the old originals. That
  interleaving is not modelled; `StockSaved` is applied as one step.
- The browser sends `{password, product, sizes}`. That fits server.js, but
  backend/server.js reads the fields at the top level. The two halves are
  modelled separately, each on its own inputs.
- `validateProductData` is modelled on products the server sends, whose
  fields are always present. Arrays with `null` elements are not modelled.
- Storefront.Sanitize: the input is a string or absent. Other JavaScript
  values are not modelled.
- ClientState.CatalogClient.HandleStockUpdate: the price text and the
  screen-reader and warning notices it triggers are not modelled.
- Feedback.RetryOperation: the waits are returned, not slept.
- Inventory.InventoryService: every route is modelled only on stores that
  server.js's own routes produced: each product with at least one size,
  trimmed non-blank labels and validated product fields. The schema does
  not enforce these. backend/server.js opens the same database and creates
  the same tables (backend/server.js:26-46, 71-92), and its create route
  (backend/server.js:264-284) stores products with no sizes, blank or
  untrimmed titles, or a price of 0 or less. The model does not cover
  server.js serving such a store, for example deleting such a product,
  counting it in the stats, or answering 404 when removing a size from a
  product that has none.
- Inventory.InventoryService.DeleteProduct, Inventory.InventoryService.AddSize:
  two error paths are modelled by assumption. For DeleteProduct, an id that
  `parseInt` turns into `NaN` is modelled as "not found" (404).
  server.js:462-471 has no `isNaN` check and binds the `NaN` into the
  SELECT. Whether the driver and MySQL then return no row (404) or fail
  (500, server.js:491-494) cannot be read from the source. For AddSize, the
  label is a string or absent. A JSON number such as `"size": 38` passes
  `!size` and makes `size.trim()` at server.js:510 throw, which answers 500
  (server.js:557-563). The model does not express that case.
- Inventory.CleanSizes, Inventory.InventoryService.CreateProduct: a
  `null` element of `sizes` is not expressible as a `SizeInput`. In
  server.js, reading `size.size` from it (server.js:381-384) throws, and the
  route answers 500 (server.js:449-453). That happens before the title
  check and the transaction, so nothing is written and no id is used. The
  model's nearest input, a size with neither field, is dropped as blank.
- Inventory.InventoryService, Inventory.CreateKeepsTitlesUnique: routes are
  modelled one request at a time, each as one atomic step. In server.js the
  duplicate-title SELECT (server.js:394-402) runs before the transaction
  begins, and `title` has no unique index. So two concurrent creates with
  the same title can both pass the check and both insert. Unique titles
  are kept only when requests are served one at a time.
- Inventory.CleanSize: a size whose stock is present but not a number
  (`parseInt` gives `NaN`) is modelled as stock 0. server.js:383 binds the
  `NaN` into the INSERT, and what MySQL then does (reject the row and roll
  back, or store 0) depends on its SQL mode.
- Inventory.InventoryService.UpdateStock, Inventory.InventoryService.AddSize,
  Inventory.InventoryService.CreateProduct: `stock` is an unbounded integer.
  The column is `INT` (server.js:101), so a stock outside the 32-bit range
  fails the statement or is saturated by MySQL, while the model answers
  `Ok` with the exact value.
- A `CONFIG.ADMIN_PASSWORD` check in the browser gates the admin panel.
  It is not modelled: the servers check the password themselves.

## Findings

| source | as written | input that shows it | evidently intended | confidence | as-written member | corrected member |
|---|---|---|---|---|---|---|
| backend/public/app.js:1586-1598 | unsaved edits are keyed by `` `${productId}-${size}` `` and restored by `key.split('-')[0]` and `[1]` | product 5 with sizes "38" and "38-39", both edited to 7 and 9, then a `stock_updated` arrives | each edit returns to its own input | not executed | ClientState.DashKeyMisplacesEdit | ClientState.RestoreKeepsEdits |
| backend/public/app.js:1678-1692 | `hideNotification` clears the busy flag at once but shows the next queued note only 300 ms later, so a note requested in between is shown first | show A, show B, hide, show C, timer, hide, timer | notes appear in the order they were requested | not executed | Feedback.AsWrittenReorders | Feedback.RunKeepsOrder |

=== FILE: catalog.dfy ===
/** The two tables both server revisions keep and the Canonical Product List
    they broadcast: `products` (id -> title, brand, price, image_url) and
    `product_sizes` ((product_id, size) -> stock), the per-product `sizes`
    array in label order, the whole list in id order, and the counters of
    the stats route. */
module Catalog {
  import opened Text

  /** A row of `products`; the price is a whole number of cents. */
  datatype Product = Product(title: string, brand: string, price: int, imageUrl: string)

  /** The unique key `(product_id, size)` of `product_sizes`. */
  datatype Row = Row(productId: int, size: string)

  type Stock = map<Row, int>

  /** One element of a product's `sizes` array. */
  datatype SizeStock = SizeStock(size: string, stock: int)

  /** One product of the Canonical Product List, with its sizes attached. */
  datatype Listing = Listing(id: int, title: string, brand: string, price: int, imageUrl: string,
                             sizes: seq<SizeStock>)

  /** The two socket events; both carry the whole list. */
  datatype Event = StockUpdated | ProductsUpdated

  datatype Broadcast = Broadcast(event: Event, products: seq<Listing>)

  /** The labels `product_sizes` holds for product `id`. */
  function LabelsOf(stock: Stock, id: int): set<string> {
    set r | r in stock && r.productId == id :: r.size
  }

  function SizeRows(stock: Stock, id: int, labels: seq<string>): (r: seq<SizeStock>)
    requires forall l :: l in labels ==> Row(id, l) in stock
    ensures |r| == |labels|
    ensures forall k :: 0 <= k < |r| ==> r[k] == SizeStock(labels[k], stock[Row(id, labels[k])])
  {
    if labels == [] then []
    else [SizeStock(labels[0], stock[Row(id, labels[0])])] + SizeRows(stock, id, labels[1..])
  }

  /** `sizes` lists every row of product `id` once, with its stock, in
      strictly increasing label order, and nothing else. */
  ghost predicate SizesReflect(sizes: seq<SizeStock>, stock: Stock, id: int) {
    && (forall i, j :: 0 <= i < j < |sizes| ==> LexLe(sizes[i].size, sizes[j].size) && sizes[i].size != sizes[j].size)
    && (forall k :: 0 <= k < |sizes| ==> Row(id, sizes[k].size) in stock && stock[Row(id, sizes[k].size)] == sizes[k].stock)
    && (forall r :: r in stock && r.productId == id ==> exists k :: 0 <= k < |sizes| && sizes[k].size == r.size)
  }

  /** `SELECT size, stock FROM product_sizes WHERE product_id = ? ORDER BY size`. */
  function SizesOf(stock: Stock, id: int): (r: seq<SizeStock>)
    ensures SizesReflect(r, stock, id)
  {
    var labels := SortStrings(LabelsOf(stock, id));
    SizeRowsReflect(stock, id, labels);
    SizeRows(stock, id, labels)
  }

  lemma SizeRowsReflect(stock: Stock, id: int, labels: seq<string>)
    requires StrictlySorted(labels)
    requires forall l :: l in labels <==> l in LabelsOf(stock, id)
    ensures forall l :: l in labels ==> Row(id, l) in stock
    ensures SizesReflect(SizeRows(stock, id, labels), stock, id)
  {
    LabelsHaveRows(stock, id, labels);
    SizeRowsSorted(stock, id, labels);
    SizeRowsStocks(stock, id, labels);
    SizeRowsCover(stock, id, labels);
  }

  lemma SizeRowsStocks(stock: Stock, id: int, labels: seq<string>)
    requires forall l :: l in labels ==> Row(id, l) in stock
    ensures var r := SizeRows(stock, id, labels);
            forall k :: 0 <= k < |r| ==> Row(id, r[k].size) in stock && stock[Row(id, r[k].size)] == r[k].stock
  {
    assert forall k :: 0 <= k < |labels| ==> labels[k] in labels;
  }

  lemma SizeRowsSorted(stock: Stock, id: int, labels: seq<string>)
    requires StrictlySorted(labels)
    requires forall l :: l in labels ==> Row(id, l) in stock
    ensures var r := SizeRows(stock, id, labels);
            forall i, j :: 0 <= i < j < |r| ==> LexLe(r[i].size, r[j].size) && r[i].size != r[j].size
  {
    var r := SizeRows(stock, id, labels);
    assert forall k :: 0 <= k < |r| ==> r[k].size == labels[k];
  }

  lemma SizeRowsCover(stock: Stock, id: int, labels: seq<string>)
    requires forall l :: l in labels <==> l in LabelsOf(stock, id)
    requires forall l :: l in labels ==> Row(id, l) in stock
    ensures forall row :: row in stock && row.productId == id ==>
              exists k :: 0 <= k < |SizeRows(stock, id, labels)| && SizeRows(stock, id, labels)[k].size == row.size
  {
    var r := SizeRows(stock, id, labels);
    forall row | row in stock && row.productId == id
      ensures exists k :: 0 <= k < |r| && r[k].size == row.size
    {
      var k := RowListed(stock, id, labels, row);
      assert r[k].size == row.size;
    }
    assert r == SizeRows(stock, id, labels);
  }

  lemma LabelsHaveRows(stock: Stock, id: int, labels: seq<string>)
    requires forall l :: l in labels ==> l in LabelsOf(stock, id)
    ensures forall l :: l in labels ==> Row(id, l) in stock
  {
    forall l | l in labels ensures Row(id, l) in stock {
      assert l in LabelsOf(stock, id);
      var row :| row in stock && row.productId == id && row.size == l;
    }
  }

  /** Every row of product `id` has its label at some position `k`. */
  lemma RowListed(stock: Stock, id: int, labels: seq<string>, row: Row) returns (k: nat)
    requires forall l :: l in labels <==> l in LabelsOf(stock, id)
    requires row in stock && row.productId == id
    ensures k < |labels| && labels[k] == row.size
  {
    assert row.size in LabelsOf(stock, id);
    k :| 0 <= k < |labels| && labels[k] == row.size;
  }

  function ListingOf(id: int, p: Product, stock: Stock): Listing {
    Listing(id, p.title, p.brand, p.price, p.imageUrl, SizesOf(stock, id))
  }

  /** The ids of `keys` in `[1, n]`, ascending. */
  function IdsUpTo(keys: set<int>, n: int): (r: seq<int>)
    ensures forall i, j :: 0 <= i < j < |r| ==> r[i] < r[j]
    ensures forall x :: x in r <==> x in keys && 1 <= x <= n
    decreases n
  {
    if n < 1 then []
    else
      var rest := IdsUpTo(keys, n - 1);
      assert forall i :: 0 <= i < |rest| ==> rest[i] in rest;
      rest + (if n in keys then [n] else [])
  }

  /** The ids of `keys` in `[1, n]`, descending. */
  function IdsDownFrom(keys: set<int>, n: int): (r: seq<int>)
    ensures forall i, j :: 0 <= i < j < |r| ==> r[i] > r[j]
    ensures forall x :: x in r <==> x in keys && 1 <= x <= n
    decreases n
  {
    if n < 1 then []
    else
      var rest := IdsDownFrom(keys, n - 1);
      assert forall i :: 0 <= i < |rest| ==> rest[i] in rest;
      (if n in keys then [n] else []) + rest
  }

  function Listings(products: map<int, Product>, stock: Stock, ids: seq<int>): (r: seq<Listing>)
    requires forall id :: id in ids ==> id in products
    ensures |r| == |ids|
    ensures forall i :: 0 <= i < |r| ==> r[i] == ListingOf(ids[i], products[ids[i]], stock)
  {
    seq(|ids|, i requires 0 <= i < |ids| => ListingOf(ids[i], products[ids[i]], stock))
  }

  /** `cat` is the Canonical Product List of the two tables: one listing per
      product, each carrying the product's fields and its sizes. */
  ghost predicate Reflects(cat: seq<Listing>, products: map<int, Product>, stock: Stock) {
    && (forall i :: 0 <= i < |cat| ==>
          cat[i].id in products && cat[i] == ListingOf(cat[i].id, products[cat[i].id], stock))
    && (forall id :: id in products ==> exists i :: 0 <= i < |cat| && cat[i].id == id)
    && (forall i, j :: 0 <= i < j < |cat| ==> cat[i].id != cat[j].id)
  }

  /** Every product id is in `[1, bound)`: ids come from an AUTO_INCREMENT
      counter that is now at `bound`. */
  ghost predicate IdsBelow(products: map<int, Product>, bound: int) {
    forall id :: id in products ==> 1 <= id < bound
  }

  /** `getProductsWithSizes` of backend/server.js: `ORDER BY id`. */
  function ByIdAscending(products: map<int, Product>, stock: Stock, bound: int): (r: seq<Listing>)
    requires IdsBelow(products, bound)
    ensures Reflects(r, products, stock)
    ensures forall i, j :: 0 <= i < j < |r| ==> r[i].id < r[j].id
  {
    var ids := IdsUpTo(products.Keys, bound - 1);
    var r := Listings(products, stock, ids);
    forall id | id in products ensures exists i :: 0 <= i < |r| && r[i].id == id {
      var i :| 0 <= i < |ids| && ids[i] == id;
      assert r[i].id == id;
    }
    r
  }

  /** `getProductsWithSizes` of server.js: `ORDER BY created_at DESC`, the
      most recently created product first. */
  function NewestFirst(products: map<int, Product>, stock: Stock, bound: int): (r: seq<Listing>)
    requires IdsBelow(products, bound)
    ensures Reflects(r, products, stock)
    ensures forall i, j :: 0 <= i < j < |r| ==> r[i].id > r[j].id
  {
    var ids := IdsDownFrom(products.Keys, bound - 1);
    var r := Listings(products, stock, ids);
    forall id | id in products ensures exists i :: 0 <= i < |r| && r[i].id == id {
      var i :| 0 <= i < |ids| && ids[i] == id;
      assert r[i].id == id;
    }
    r
  }

  function IdSet(cat: seq<Listing>): set<int> {
    set i | 0 <= i < |cat| :: cat[i].id
  }

  predicate DistinctIds(cat: seq<Listing>) {
    forall i, j :: 0 <= i < j < |cat| ==> cat[i].id != cat[j].id
  }

  lemma IdSetCons(cat: seq<Listing>)
    requires cat != []
    ensures IdSet(cat) == IdSet(cat[1..]) + {cat[0].id}
  {
    var rest := cat[1..];
    forall x | x in IdSet(cat) ensures x in IdSet(rest) + {cat[0].id} {
      var i :| 0 <= i < |cat| && cat[i].id == x;
      if i > 0 { assert rest[i - 1].id == x; }
    }
    forall x | x in IdSet(rest) ensures x in IdSet(cat) {
      var i :| 0 <= i < |rest| && rest[i].id == x;
      assert cat[i + 1].id == x;
    }
  }

  lemma DistinctTail(cat: seq<Listing>)
    requires cat != [] && DistinctIds(cat)
    ensures DistinctIds(cat[1..]) && cat[0].id !in IdSet(cat[1..])
  {
    assert forall i :: 0 <= i < |cat[1..]| ==> cat[1..][i] == cat[i + 1];
  }

  lemma {:induction false} DistinctIdsCount(cat: seq<Listing>)
    requires DistinctIds(cat)
    ensures |IdSet(cat)| == |cat|
  {
    if cat != [] {
      DistinctTail(cat);
      DistinctIdsCount(cat[1..]);
      IdSetCons(cat);
    }
  }

  /** The list has exactly as many entries as `products` has rows, so the
      `totalProducts` counter (`COUNT(*) FROM products`) is its length. */
  lemma CatalogLength(cat: seq<Listing>, products: map<int, Product>, stock: Stock)
    requires Reflects(cat, products, stock)
    ensures |cat| == |products|
  {
    DistinctIdsCount(cat);
    assert IdSet(cat) == products.Keys by {
      forall id | id in products ensures id in IdSet(cat) {
        var i :| 0 <= i < |cat| && cat[i].id == id;
      }
    }
  }

  /** The stock column of every row in the list, product by product. */
  function StockValues(cat: seq<Listing>): seq<int> {
    if cat == [] then [] else Stocks(cat[0].sizes) + StockValues(cat[1..])
  }

  function Stocks(sizes: seq<SizeStock>): (r: seq<int>)
    ensures |r| == |sizes| && forall k :: 0 <= k < |r| ==> r[k] == sizes[k].stock
  {
    if sizes == [] then [] else [sizes[0].stock] + Stocks(sizes[1..])
  }

  /** `SUM(stock)`, with the `|| 0` the route applies to an empty table. */
  function Sum(xs: seq<int>): int {
    if xs == [] then 0 else xs[0] + Sum(xs[1..])
  }

  /** What a counter of the stats route counts: every row, the rows with
      `stock = 0`, or those with `stock > 0 AND stock < 5`. */
  datatype Counter = EveryRow | Zero | Low

  predicate Counts(c: Counter, stock: int) {
    match c
    case EveryRow => true
    case Zero => stock == 0
    case Low => 0 < stock < 5
  }

  /** How many entries of `xs` counter `c` counts. */
  function CountOf(xs: seq<int>, c: Counter): nat {
    if xs == [] then 0 else (if Counts(c, xs[0]) then 1 else 0) + CountOf(xs[1..], c)
  }

  /** `COUNT(*) ... WHERE stock = 0`. */
  function OutOfStock(xs: seq<int>): nat {
    CountOf(xs, Zero)
  }

  /** `COUNT(*) ... WHERE stock > 0 AND stock < 5`. */
  function LowStock(xs: seq<int>): nat {
    CountOf(xs, Low)
  }

  /** The rows of `product_sizes` that counter `c` counts. */
  function TableRows(stock: Stock, c: Counter): set<Row> {
    set r | r in stock && Counts(c, stock[r])
  }

  /** The rows the two counters leave out: negative stock or stock of five
      and more. */
  function Uncounted(xs: seq<int>): nat {
    if xs == [] then 0 else (if xs[0] < 0 || xs[0] >= 5 then 1 else 0) + Uncounted(xs[1..])
  }

  /** The `general` block of `GET /api/admin/stats`. */
  datatype Stats = Stats(totalProducts: nat, totalStock: int, outOfStockSizes: nat, lowStockSizes: nat)

  function StatsOf(cat: seq<Listing>): Stats {
    var xs := StockValues(cat);
    Stats(|cat|, Sum(xs), OutOfStock(xs), LowStock(xs))
  }

  /** The out-of-stock and low-stock counters never count a row twice: with
      the rows neither counts they add up to the number of rows. */
  lemma {:induction false} CountersPartitionRows(xs: seq<int>)
    ensures OutOfStock(xs) + LowStock(xs) + Uncounted(xs) == |xs|
  {
    if xs != [] { CountersPartitionRows(xs[1..]); }
  }

  /** With no negative stock, the total is at least the number of rows in
      stock at all. */
  lemma {:induction false} SumCoversStockedRows(xs: seq<int>)
    requires forall k :: 0 <= k < |xs| ==> xs[k] >= 0
    ensures Sum(xs) >= |xs| - OutOfStock(xs)
  {
    if xs != [] { SumCoversStockedRows(xs[1..]); }
  }

  /** The rows the list shows, product by product, size by size. */
  function ListedRows(cat: seq<Listing>): seq<Row> {
    if cat == [] then [] else SizeRowKeys(cat[0].id, cat[0].sizes) + ListedRows(cat[1..])
  }

  function SizeRowKeys(id: int, sizes: seq<SizeStock>): (r: seq<Row>)
    ensures |r| == |sizes| && forall k :: 0 <= k < |r| ==> r[k] == Row(id, sizes[k].size)
  {
    seq(|sizes|, k requires 0 <= k < |sizes| => Row(id, sizes[k].size))
  }

  /** `rs` names rows of `stock`, none twice, and `xs` is their stock
      column. */
  ghost predicate Enumerates(rs: seq<Row>, xs: seq<int>, stock: Stock) {
    && |xs| == |rs|
    && (forall k :: 0 <= k < |rs| ==> rs[k] in stock && xs[k] == stock[rs[k]])
    && (forall i, j :: 0 <= i < j < |rs| ==> rs[i] != rs[j])
  }

  /** One product's `sizes` array lists exactly that product's rows, each
      once, with their stocks. */
  lemma ListingRows(l: Listing, stock: Stock)
    requires SizesReflect(l.sizes, stock, l.id)
    ensures Enumerates(SizeRowKeys(l.id, l.sizes), Stocks(l.sizes), stock)
    ensures forall r :: r in SizeRowKeys(l.id, l.sizes) <==> r in stock && r.productId == l.id
  {
    var rs := SizeRowKeys(l.id, l.sizes);
    forall r | r in stock && r.productId == l.id ensures r in rs {
      var k :| 0 <= k < |l.sizes| && l.sizes[k].size == r.size;
      assert rs[k] == r;
    }
  }

  lemma AppendEnumerates(a: seq<Row>, xa: seq<int>, b: seq<Row>, xb: seq<int>, stock: Stock)
    requires Enumerates(a, xa, stock) && Enumerates(b, xb, stock)
    requires forall r :: r in a ==> r !in b
    ensures Enumerates(a + b, xa + xb, stock)
  {
    var rs, xs := a + b, xa + xb;
    forall k | |a| <= k < |rs| ensures rs[k] in stock && xs[k] == stock[rs[k]] {
      assert rs[k] == b[k - |a|] && xs[k] == xb[k - |a|];
    }
    forall i, j | 0 <= i < j < |rs| ensures rs[i] != rs[j] {
      if j < |a| {
        assert rs[i] == a[i] && rs[j] == a[j];
      } else if i < |a| {
        assert rs[i] == a[i] && rs[j] == b[j - |a|];
        assert a[i] in a;
      } else {
        assert rs[i] == b[i - |a|] && rs[j] == b[j - |a|];
      }
    }
  }

  /** The list's rows are the rows of its products, each once, and its stock
      column is theirs. */
  lemma {:induction false} ListEnumerates(cat: seq<Listing>, stock: Stock)
    requires forall i :: 0 <= i < |cat| ==> SizesReflect(cat[i].sizes, stock, cat[i].id)
    requires DistinctIds(cat)
    ensures Enumerates(ListedRows(cat), StockValues(cat), stock)
    ensures forall r :: r in ListedRows(cat) <==> r in stock && r.productId in IdSet(cat)
  {
    if cat != [] {
      var rest := cat[1..];
      assert forall i :: 0 <= i < |rest| ==> rest[i] == cat[i + 1];
      DistinctTail(cat);
      IdSetCons(cat);
      ListEnumerates(rest, stock);
      ListingRows(cat[0], stock);
      AppendEnumerates(SizeRowKeys(cat[0].id, cat[0].sizes), Stocks(cat[0].sizes),
                       ListedRows(rest), StockValues(rest), stock);
    }
  }

  /** The rows of `rs` that counter `c` counts. */
  ghost function CountedRows(rs: seq<Row>, stock: Stock, c: Counter): set<Row> {
    if rs == [] then {}
    else (if rs[0] in stock && Counts(c, stock[rs[0]]) then {rs[0]} else {}) + CountedRows(rs[1..], stock, c)
  }

  lemma {:induction false} CountedRowsMembers(rs: seq<Row>, stock: Stock, c: Counter)
    ensures forall r :: r in CountedRows(rs, stock, c) <==> r in rs && r in stock && Counts(c, stock[r])
  {
    if rs != [] {
      CountedRowsMembers(rs[1..], stock, c);
      assert forall r :: r in rs <==> r == rs[0] || r in rs[1..];
    }
  }

  lemma EnumeratesTail(rs: seq<Row>, xs: seq<int>, stock: Stock)
    requires rs != [] && Enumerates(rs, xs, stock)
    ensures Enumerates(rs[1..], xs[1..], stock) && rs[0] !in rs[1..]
  {
    assert forall k :: 0 <= k < |rs| - 1 ==> rs[1..][k] == rs[k + 1] && xs[1..][k] == xs[k + 1];
  }

  /** Counting over an enumeration of rows counts the rows themselves. */
  lemma {:induction false} CountRows(rs: seq<Row>, xs: seq<int>, stock: Stock, c: Counter)
    requires Enumerates(rs, xs, stock)
    ensures CountOf(xs, c) == |CountedRows(rs, stock, c)|
  {
    if rs != [] {
      EnumeratesTail(rs, xs, stock);
      CountRows(rs[1..], xs[1..], stock, c);
      CountedRowsMembers(rs[1..], stock, c);
    }
  }

  /** A list of the tables shows every row of `product_sizes` exactly once,
      with its stock. */
  lemma ListShowsTable(cat: seq<Listing>, products: map<int, Product>, stock: Stock)
    requires Reflects(cat, products, stock)
    requires forall r :: r in stock ==> r.productId in products
    ensures Enumerates(ListedRows(cat), StockValues(cat), stock)
    ensures forall r :: r in stock <==> r in ListedRows(cat)
  {
    forall i | 0 <= i < |cat| ensures SizesReflect(cat[i].sizes, stock, cat[i].id) {
      assert cat[i].sizes == SizesOf(stock, cat[i].id);
    }
    assert IdSet(cat) == products.Keys by {
      forall id | id in products ensures id in IdSet(cat) {
        var i :| 0 <= i < |cat| && cat[i].id == id;
      }
    }
    ListEnumerates(cat, stock);
  }

  /** Over a list of the tables, each counter of the stats route counts the
      table's own rows. */
  lemma ListCountsTable(cat: seq<Listing>, products: map<int, Product>, stock: Stock, c: Counter)
    requires Reflects(cat, products, stock)
    requires forall r :: r in stock ==> r.productId in products
    ensures CountOf(StockValues(cat), c) == |TableRows(stock, c)|
  {
    ListShowsTable(cat, products, stock);
    CountRows(ListedRows(cat), StockValues(cat), stock, c);
    CountedRowsMembers(ListedRows(cat), stock, c);
    assert CountedRows(ListedRows(cat), stock, c) == TableRows(stock, c);
  }

  /** The list's stock column has one entry per row of `product_sizes`. */
  lemma ListCoversTable(cat: seq<Listing>, products: map<int, Product>, stock: Stock)
    requires Reflects(cat, products, stock)
    requires forall r :: r in stock ==> r.productId in products
    ensures |StockValues(cat)| == |stock|
  {
    ListCountsTable(cat, products, stock, EveryRow);
    CountEveryRow(StockValues(cat));
    EveryRowIsTable(stock);
  }

  /** The counters of `StatsOf(cat)` are the sizes of the tables' own
      queries: one per product, and one per row with that much stock. */
  lemma StatsCountTables(cat: seq<Listing>, products: map<int, Product>, stock: Stock)
    requires Reflects(cat, products, stock)
    requires forall r :: r in stock ==> r.productId in products
    ensures StatsOf(cat).totalProducts == |products|
    ensures StatsOf(cat).outOfStockSizes == |TableRows(stock, Zero)|
    ensures StatsOf(cat).lowStockSizes == |TableRows(stock, Low)|
    ensures StatsOf(cat).outOfStockSizes + StatsOf(cat).lowStockSizes <= |stock|
  {
    CatalogLength(cat, products, stock);
    CountersPartitionRows(StockValues(cat));
    ListCountsTable(cat, products, stock, Zero);
    ListCountsTable(cat, products, stock, Low);
    ListCoversTable(cat, products, stock);
  }

  lemma EveryRowIsTable(stock: Stock)
    ensures |TableRows(stock, EveryRow)| == |stock|
  {
    assert TableRows(stock, EveryRow) == stock.Keys;
  }

  lemma {:induction false} CountEveryRow(xs: seq<int>)
    ensures CountOf(xs, EveryRow) == |xs|
  {
    if xs != [] { CountEveryRow(xs[1..]); }
  }
}

=== FILE: client_state.dfy ===
/** The state the storefront page keeps between socket events
    (backend/public/app.js): the product list, the grid, the search box and
    brand menu, the product modal with its selected size, and the admin stock
    panel with the edits typed into it. */
module ClientState {
  import opened Wrappers
  import opened Text
  import opened Catalog
  import opened Storefront

  /** `currentProducts.find(p => p.id === id)`. */
  function FindProduct(ps: seq<Listing>, id: int): (r: Option<Listing>)
    ensures r.None? <==> forall k :: 0 <= k < |ps| ==> ps[k].id != id
    ensures r.Some? ==> r.value in ps && r.value.id == id
  {
    if ps == [] then None
    else if ps[0].id == id then Some(ps[0])
    else FindProduct(ps[1..], id)
  }

  /** The size is listed and not sold out (`stock === 0`); a size the modal
      keeps selected after a refresh. */
  predicate StillOffered(l: Listing, size: string) {
    var f := FindSize(l.sizes, size);
    f.Some? && f.value.stock != 0
  }

  // ---------------------------------------------------------------------
  // Edits typed into the stock panel, kept across a re-render

  /** What `updateProductsDisplay` keeps of an input before re-rendering. */
  datatype Edit = Edit(value: string, changed: bool)

  function EditOf(i: StockInput): Edit {
    Edit(i.value, i.changed)
  }

  predicate SameField(a: StockInput, b: StockInput) {
    a.productIdText == b.productIdText && a.size == b.size
  }

  /** No two inputs of the panel stand for the same product and size. */
  predicate FieldsDistinct(inputs: seq<StockInput>) {
    forall i, j :: 0 <= i < j < |inputs| ==> !SameField(inputs[i], inputs[j])
  }

  // As written: the edits are keyed by the text `${productId}-${size}`, and
  // the key is split on '-' to find the input again.

  function DashKey(i: StockInput): string {
    i.productIdText + "-" + i.size
  }

  /** `key.split('-')[0]`: the text before the first '-'. */
  function BeforeDash(s: string): (r: string)
    ensures |r| <= |s| && r == s[..|r|]
    ensures '-' !in r
    ensures |r| < |s| ==> s[|r|] == '-'
  {
    if s == [] || s[0] == '-' then [] else [s[0]] + BeforeDash(s[1..])
  }

  /** `key.split('-')[1]` as a template literal prints it: the text between
      the first and the second '-', or "undefined" when there is no '-'. */
  function SecondField(s: string): string {
    var head := BeforeDash(s);
    if |head| == |s| then "undefined" else BeforeDash(s[|head| + 1..])
  }

  /** `document.querySelector('input[data-product-id=..][data-size=..]')`:
      the first input with that product id and size. */
  function FindInput(inputs: seq<StockInput>, pid: string, size: string): (r: Option<nat>)
    ensures r.Some? ==> r.value < |inputs| && inputs[r.value].productIdText == pid && inputs[r.value].size == size
    ensures r.None? ==> forall k :: 0 <= k < |inputs| ==> !(inputs[k].productIdText == pid && inputs[k].size == size)
  {
    if inputs == [] then None
    else if inputs[0].productIdText == pid && inputs[0].size == size then Some(0)
    else
      var r := FindInput(inputs[1..], pid, size);
      if r.Some? then Some(r.value + 1) else None
  }

  /** One step of the restore: the value is written back and the mark set
      again if it was set; an unmatched key is dropped. */
  function ApplyEdit(inputs: seq<StockInput>, pid: string, size: string, e: Edit): seq<StockInput> {
    match FindInput(inputs, pid, size)
    case None => inputs
    case Some(k) => inputs[k := inputs[k].(value := e.value, changed := inputs[k].changed || e.changed)]
  }

  /** The edits in the order the `Map` holds them. */
  function SavedByDashKey(inputs: seq<StockInput>): seq<(string, Edit)> {
    seq(|inputs|, k requires 0 <= k < |inputs| => (DashKey(inputs[k]), EditOf(inputs[k])))
  }

  /** The restore of `updateProductsDisplay` as written. */
  function RestoreByDashKey(rendered: seq<StockInput>, saved: seq<(string, Edit)>): seq<StockInput>
    decreases |saved|
  {
    if saved == [] then rendered
    else
      var key := saved[0].0;
      RestoreByDashKey(ApplyEdit(rendered, BeforeDash(key), SecondField(key), saved[0].1), saved[1..])
  }

  /** How the two keys of the sample panel split. */
  lemma DashKeysSplit()
    ensures BeforeDash("5-38") == "5" && SecondField("5-38") == "38"
    ensures BeforeDash("5-38-39") == "5" && SecondField("5-38-39") == "38"
  {
    assert BeforeDash("38") == "38";
    assert "5-38"[2..] == "38";
    assert BeforeDash("38-39") == "38";
    assert "5-38-39"[2..] == "38-39";
  }

  /** A sample panel: product 5 with sizes "38" and "38-39", edited from 3
      and 4 to 7 and 9, and the same panel rendered again from the server. */
  const SampleEdited: seq<StockInput> :=
    [StockInput("5", "38", "7", "3", true), StockInput("5", "38-39", "9", "4", true)]
  const SampleRendered: seq<StockInput> :=
    [StockInput("5", "38", "3", "3", false), StockInput("5", "38-39", "4", "4", false)]

  lemma SampleSavedByDashKey()
    ensures SavedByDashKey(SampleEdited) == [("5-38", Edit("7", true)), ("5-38-39", Edit("9", true))]
  {
    assert DashKey(SampleEdited[0]) == "5-38" && DashKey(SampleEdited[1]) == "5-38-39";
  }

  /** Both saved keys land on the input of "38": first its own edit, then
      the one of "38-39". */
  lemma SampleEditsLandOn38()
    ensures ApplyEdit(SampleRendered, "5", "38", Edit("7", true))
            == [StockInput("5", "38", "7", "3", true), SampleRendered[1]]
    ensures ApplyEdit([StockInput("5", "38", "7", "3", true), SampleRendered[1]], "5", "38", Edit("9", true))
            == [StockInput("5", "38", "9", "3", true), SampleRendered[1]]
  {
    assert FindInput(SampleRendered, "5", "38") == Some(0);
    assert FindInput([StockInput("5", "38", "7", "3", true), SampleRendered[1]], "5", "38") == Some(0);
  }

  /** A label that holds '-' breaks the restore: with sizes "38" and "38-39"
      both edited, the edit of "38-39" lands on "38" and is lost for
      "38-39", whose input falls back to the server's value. */
  lemma DashKeyMisplacesEdit()
    ensures var r := RestoreByDashKey(SampleRendered, SavedByDashKey(SampleEdited));
            |r| == 2 && r[0].value == "9" && r[1].value == "4" && !r[1].changed
  {
    var saved := SavedByDashKey(SampleEdited);
    SampleSavedByDashKey();
    DashKeysSplit();
    SampleEditsLandOn38();
    var first := [StockInput("5", "38", "7", "3", true), SampleRendered[1]];
    var second := [StockInput("5", "38", "9", "3", true), SampleRendered[1]];
    assert RestoreByDashKey(SampleRendered, saved) == RestoreByDashKey(first, saved[1..]);
    assert saved[1..][0] == saved[1] && saved[1..][1..] == [];
    assert RestoreByDashKey(first, saved[1..]) == RestoreByDashKey(second, []);
  }

  // Corrected: the edits are keyed by the pair (product id, size).

  function FieldOf(i: StockInput): (string, string) {
    (i.productIdText, i.size)
  }

  /** The edits of the panel by field; a later input wins. */
  function EditsOf(inputs: seq<StockInput>): (m: map<(string, string), Edit>)
    ensures forall k :: 0 <= k < |inputs| ==> FieldOf(inputs[k]) in m
    ensures forall f :: f in m ==> exists k :: 0 <= k < |inputs| && FieldOf(inputs[k]) == f
  {
    if inputs == [] then map[]
    else
      var n := |inputs| - 1;
      var m := EditsOf(inputs[..n]);
      assert forall k :: 0 <= k < n ==> inputs[..n][k] == inputs[k];
      m[FieldOf(inputs[n]) := EditOf(inputs[n])]
  }

  /** With distinct fields, each input's own edit is the one kept. */
  lemma EditsOfDistinct(inputs: seq<StockInput>)
    requires FieldsDistinct(inputs)
    ensures forall k :: 0 <= k < |inputs| ==> EditsOf(inputs)[FieldOf(inputs[k])] == EditOf(inputs[k])
  {
    forall k | 0 <= k < |inputs| ensures EditsOf(inputs)[FieldOf(inputs[k])] == EditOf(inputs[k]) {
      EditsOfLookup(inputs, k);
    }
  }

  lemma {:induction false} EditsOfLookup(inputs: seq<StockInput>, k: int)
    requires FieldsDistinct(inputs) && 0 <= k < |inputs|
    ensures EditsOf(inputs)[FieldOf(inputs[k])] == EditOf(inputs[k])
  {
    var n := |inputs| - 1;
    if k < n {
      var init := inputs[..n];
      assert FieldsDistinct(init) by {
        forall i, j | 0 <= i < j < n ensures !SameField(init[i], init[j]) {
          assert init[i] == inputs[i] && init[j] == inputs[j];
        }
      }
      EditsOfLookup(init, k);
      assert init[k] == inputs[k];
      assert !SameField(inputs[k], inputs[n]);
    }
  }

  function RestoredOne(i: StockInput, saved: map<(string, string), Edit>): StockInput {
    if FieldOf(i) in saved then i.(value := saved[FieldOf(i)].value, changed := i.changed || saved[FieldOf(i)].changed)
    else i
  }

  /** The re-rendered panel with the saved edits written back. */
  function Restored(rendered: seq<StockInput>, saved: map<(string, string), Edit>): seq<StockInput> {
    seq(|rendered|, k requires 0 <= k < |rendered| => RestoredOne(rendered[k], saved))
  }

  /** Every input of the new panel whose product and size were on the old
      one gets the old value and mark back; the others keep the server's
      value; ids, sizes and originals are always the new panel's, so the
      next save compares against the new stock. */
  lemma RestoreKeepsEdits(before: seq<StockInput>, rendered: seq<StockInput>)
    requires FieldsDistinct(before)
    ensures |Restored(rendered, EditsOf(before))| == |rendered|
    ensures forall k :: 0 <= k < |rendered| ==>
              var r := Restored(rendered, EditsOf(before))[k];
              r.productIdText == rendered[k].productIdText && r.size == rendered[k].size && r.originalText == rendered[k].originalText
    ensures forall k, j :: 0 <= k < |rendered| && 0 <= j < |before| && SameField(rendered[k], before[j]) ==>
              Restored(rendered, EditsOf(before))[k].value == before[j].value
              && Restored(rendered, EditsOf(before))[k].changed == (rendered[k].changed || before[j].changed)
    ensures forall k :: 0 <= k < |rendered| && (forall j :: 0 <= j < |before| ==> !SameField(rendered[k], before[j])) ==>
              Restored(rendered, EditsOf(before))[k] == rendered[k]
  {
    EditsOfDistinct(before);
  }

  /** The same restore does what the split-key one fails to do on the
      inputs of `DashKeyMisplacesEdit`. */
  lemma FieldKeyRestoresBoth()
    ensures var r := Restored(SampleRendered, EditsOf(SampleEdited));
            |r| == 2 && r[0].value == "7" && r[1].value == "9" && r[1].changed
  {
    assert "38" != "38-39";
    RestoreKeepsEdits(SampleEdited, SampleRendered);
    assert SameField(SampleRendered[0], SampleEdited[0]) && SameField(SampleRendered[1], SampleEdited[1]);
  }

  // Where no key holds a '-' beyond its own separator, the two restores
  // agree.

  /** An input whose product id and label hold no '-' */
  predicate DashFree(i: StockInput) {
    '-' !in i.productIdText && '-' !in i.size
  }

  /** The key of such an input splits back into its product id and label. */
  lemma DashKeySplitsBack(i: StockInput)
    requires DashFree(i)
    ensures BeforeDash(DashKey(i)) == i.productIdText
    ensures SecondField(DashKey(i)) == i.size
  {
    var a, b, key := i.productIdText, i.size, DashKey(i);
    assert key[|a|] == '-';
    assert BeforeDash(key) == a;
    assert key[|a| + 1..] == b;
  }

  /** One step of the restore as written, on a panel already carrying the
      edits `saved`, adds the edit of a field not yet in `saved`. */
  lemma ApplyEditStep(rendered: seq<StockInput>, saved: map<(string, string), Edit>, pid: string, size: string, e: Edit)
    requires FieldsDistinct(rendered) && (pid, size) !in saved
    ensures ApplyEdit(Restored(rendered, saved), pid, size, e) == Restored(rendered, saved[(pid, size) := e])
  {
    var cur := Restored(rendered, saved);
    var next := Restored(rendered, saved[(pid, size) := e]);
    match FindInput(cur, pid, size)
    case None =>
      forall k | 0 <= k < |rendered| ensures cur[k] == next[k] {
        assert cur[k].productIdText == rendered[k].productIdText && cur[k].size == rendered[k].size;
      }
    case Some(k0) =>
      assert FieldOf(rendered[k0]) == (pid, size);
      forall k | 0 <= k < |rendered| && k != k0 ensures cur[k] == next[k] {
        assert !SameField(rendered[k], rendered[k0]) by {
          if k < k0 { assert !SameField(rendered[k], rendered[k0]); }
          else { assert !SameField(rendered[k0], rendered[k]); }
        }
      }
  }

  lemma {:induction false} DashRestoreFrom(rendered: seq<StockInput>, before: seq<StockInput>, j: nat)
    requires FieldsDistinct(rendered) && FieldsDistinct(before) && j <= |before|
    requires forall k :: 0 <= k < |before| ==> DashFree(before[k])
    ensures RestoreByDashKey(Restored(rendered, EditsOf(before[..j])), SavedByDashKey(before)[j..])
            == Restored(rendered, EditsOf(before))
    decreases |before| - j
  {
    var saved := SavedByDashKey(before);
    if j == |before| {
      assert before[..j] == before;
      assert saved[j..] == [];
    } else {
      var m := EditsOf(before[..j]);
      DashKeySplitsBack(before[j]);
      assert FieldOf(before[j]) !in m by {
        forall k | 0 <= k < j ensures FieldOf(before[..j][k]) != FieldOf(before[j]) {
          assert before[..j][k] == before[k];
          assert !SameField(before[k], before[j]);
        }
      }
      ApplyEditStep(rendered, m, before[j].productIdText, before[j].size, EditOf(before[j]));
      assert before[..j + 1][..j] == before[..j];
      assert EditsOf(before[..j + 1]) == m[FieldOf(before[j]) := EditOf(before[j])];
      assert saved[j..][0] == (DashKey(before[j]), EditOf(before[j]));
      assert saved[j..][1..] == saved[j + 1..];
      DashRestoreFrom(rendered, before, j + 1);
    }
  }

  /** On a panel whose product ids and labels hold no '-', and whose fields
      are distinct before and after the re-render, the restore as written
      and the restore by field give the same panel. */
  lemma DashKeyAgreesWithoutDash(before: seq<StockInput>, rendered: seq<StockInput>)
    requires FieldsDistinct(rendered) && FieldsDistinct(before)
    requires forall k :: 0 <= k < |before| ==> DashFree(before[k])
    ensures RestoreByDashKey(rendered, SavedByDashKey(before)) == Restored(rendered, EditsOf(before))
  {
    DashRestoreFrom(rendered, before, 0);
    assert before[..0] == [];
    assert Restored(rendered, map[]) == rendered;
    assert SavedByDashKey(before)[0..] == SavedByDashKey(before);
  }

  /** The panel rendered from a list with distinct ids and, per product,
      distinct labels has distinct fields. */
  lemma {:induction false} RenderedFieldsDistinct(ps: seq<Listing>)
    requires forall i, j :: 0 <= i < j < |ps| ==> ps[i].id != ps[j].id
    requires forall p, i, j :: p in ps && 0 <= i < j < |p.sizes| ==> p.sizes[i].size != p.sizes[j].size
    ensures FieldsDistinct(RenderStockInputs(ps))
  {
    if ps != [] {
      var head := InputsOf(ps[0]);
      var rest := RenderStockInputs(ps[1..]);
      RenderedFieldsDistinct(ps[1..]);
      RenderedIds(ps[1..]);
      forall a | a in rest ensures a.productIdText != IdText(ps[0].id) {
        var j :| 0 <= j < |ps[1..]| && a.productIdText == IdText(ps[1..][j].id);
        assert ps[1..][j] == ps[j + 1];
        ParseIdText(ps[0].id);
        ParseIdText(ps[j + 1].id);
      }
      var all := head + rest;
      forall i, j | 0 <= i < j < |all| ensures !SameField(all[i], all[j]) {
        if j < |head| {
          assert all[i] == head[i] && all[j] == head[j];
        } else if i >= |head| {
          assert all[i] == rest[i - |head|] && all[j] == rest[j - |head|];
        } else {
          assert all[j] == rest[j - |head|];
          assert all[j] in rest;
        }
      }
    }
  }

  /** Every input of the rendered panel carries the id of one of the
      listings. */
  lemma {:induction false} RenderedIds(ps: seq<Listing>)
    ensures forall a :: a in RenderStockInputs(ps) ==> exists j :: 0 <= j < |ps| && a.productIdText == IdText(ps[j].id)
  {
    if ps != [] {
      RenderedIds(ps[1..]);
      forall a | a in RenderStockInputs(ps) ensures exists j :: 0 <= j < |ps| && a.productIdText == IdText(ps[j].id) {
        if a in InputsOf(ps[0]) {
          assert a.productIdText == IdText(ps[0].id);
        } else {
          var j :| 0 <= j < |ps[1..]| && a.productIdText == IdText(ps[1..][j].id);
          assert ps[1..][j] == ps[j + 1];
        }
      }
    }
  }

  /** The save pass over the old panel. */
  method SaveEdits(inputs: seq<StockInput>) returns (saved: map<(string, string), Edit>)
    ensures saved == EditsOf(inputs)
  {
    saved := map[];
    for i := 0 to |inputs|
      invariant saved == EditsOf(inputs[..i])
    {
      assert inputs[..i + 1][..i] == inputs[..i];
      saved := saved[FieldOf(inputs[i]) := EditOf(inputs[i])];
    }
    assert inputs[..|inputs|] == inputs;
  }

  /** The restore pass over the new panel. */
  method RestoreEdits(rendered: seq<StockInput>, saved: map<(string, string), Edit>) returns (r: seq<StockInput>)
    ensures r == Restored(rendered, saved)
  {
    r := [];
    for i := 0 to |rendered|
      invariant |r| == i && forall k :: 0 <= k < i ==> r[k] == RestoredOne(rendered[k], saved)
    {
      var input := rendered[i];
      if FieldOf(input) in saved {
        var e := saved[FieldOf(input)];
        input := input.(value := e.value, changed := input.changed || e.changed);
      }
      r := r + [input];
    }
  }

  /** The panel after a successful save: every original becomes the value
      saved and every mark is cleared. */
  function MarkedSaved(inputs: seq<StockInput>): seq<StockInput> {
    seq(|inputs|, k requires 0 <= k < |inputs| => inputs[k].(originalText := inputs[k].value, changed := false))
  }

  /** Once saved, a panel whose values are numbers or empty has nothing left
      to save. */
  lemma SavedPanelHasNoChanges(inputs: seq<StockInput>)
    requires forall k :: 0 <= k < |inputs| ==> inputs[k].value == "" || ParseInt(inputs[k].value).Some?
    ensures !HasChanges(MarkedSaved(inputs))
  {
  }

  // ---------------------------------------------------------------------
  // The page

  class CatalogClient {
    /** `AppState.currentProducts`. */
    var products: seq<Listing>
    /** The cards in the grid. */
    var shown: seq<Listing>
    /** The search box, lower-cased and trimmed, and the brand menu. */
    var query: string
    var brand: string
    var brandOptions: seq<string>
    /** `AppState.currentProduct`, `AppState.selectedSize` and whether the
        product modal is open. */
    var currentProduct: Option<Listing>
    var selectedSize: Option<string>
    var modalOpen: bool
    /** Whether the admin modal is open, and its stock inputs. */
    var adminOpen: bool
    var stockInputs: seq<StockInput>

    /** The modal is open exactly while a product is held, and a size is
        selected only inside it. */
    predicate Valid()
      reads this`modalOpen, this`currentProduct, this`selectedSize
    {
      (modalOpen <==> currentProduct.Some?) && (Truthy(selectedSize) ==> modalOpen)
    }

    constructor()
      ensures Valid()
      ensures products == [] && shown == [] && query == "" && brand == "" && brandOptions == []
      ensures currentProduct.None? && selectedSize.None? && !modalOpen && !adminOpen && stockInputs == []
    {
      products := [];
      shown := [];
      query := "";
      brand := "";
      brandOptions := [];
      currentProduct := None;
      selectedSize := None;
      modalOpen := false;
      adminOpen := false;
      stockInputs := [];
    }

    /** `handleSearch` and `handleBrandFilter`: the grid shows the matching
        products. */
    method Search(text: string, chosenBrand: string)
      modifies this`query, this`brand, this`shown
      ensures query == Trim(Lower(text)) && brand == chosenBrand
      ensures shown == Filter(products, query, brand)
    {
      query := Trim(Lower(text));
      brand := chosenBrand;
      shown := Filter(products, query, brand);
    }

    /** `openProductModal`: an unknown id does nothing; otherwise the
        product is held with no size selected. */
    method OpenProduct(id: int)
      requires Valid()
      modifies this`currentProduct, this`selectedSize, this`modalOpen
      ensures Valid()
      ensures FindProduct(products, id).None? ==> unchanged(this`currentProduct, this`selectedSize, this`modalOpen)
      ensures FindProduct(products, id).Some? ==>
                modalOpen && currentProduct == FindProduct(products, id) && selectedSize.None?
    {
      var p := FindProduct(products, id);
      if p.Some? {
        currentProduct := p;
        selectedSize := None;
        modalOpen := true;
      }
    }

    /** `selectSize`: only the button of a size that is not sold out
        reacts, whatever its label; an empty label is selected like any
        other, and, being falsy, leaves the buy button disabled. */
    method SelectSize(size: string)
      requires Valid()
      modifies this`selectedSize
      ensures Valid()
      ensures modalOpen && StillOffered(currentProduct.value, size) ==> selectedSize == Some(size)
      ensures !(modalOpen && StillOffered(currentProduct.value, size)) ==> selectedSize == old(selectedSize)
    {
      if modalOpen && StillOffered(currentProduct.value, size) {
        selectedSize := Some(size);
      }
    }

    /** `closeProductModal`. */
    method CloseProduct()
      modifies this`currentProduct, this`selectedSize, this`modalOpen
      ensures Valid() && !modalOpen && currentProduct.None? && selectedSize.None?
    {
      modalOpen := false;
      currentProduct := None;
      selectedSize := None;
    }

    /** `handleStockUpdate`: the new list replaces the old one and the page
        is reconciled with it (`updateProductsDisplay`). The grid keeps the
        current filter. An open modal shows the new data of its product and
        drops a selected size that is gone or sold out, or closes when the
        product is gone. An open admin panel is rendered again with the
        edits typed so far written back. */
    method HandleStockUpdate(list: seq<Listing>)
      requires Valid()
      modifies this`products, this`shown, this`currentProduct, this`selectedSize, this`modalOpen, this`stockInputs
      ensures Valid()
      ensures products == list && shown == Filter(list, query, brand)
      ensures !old(modalOpen) ==> unchanged(this`currentProduct, this`selectedSize, this`modalOpen)
      ensures old(modalOpen) && FindProduct(list, old(currentProduct).value.id).None? ==>
                !modalOpen && currentProduct.None? && selectedSize.None?
      ensures old(modalOpen) && FindProduct(list, old(currentProduct).value.id).Some? ==>
                modalOpen && currentProduct == FindProduct(list, old(currentProduct).value.id)
                && selectedSize == (if Truthy(old(selectedSize)) && !StillOffered(currentProduct.value, old(selectedSize).value)
                                    then None else old(selectedSize))
      ensures modalOpen ==> currentProduct.value in list
      ensures modalOpen && Truthy(selectedSize) ==> StillOffered(currentProduct.value, selectedSize.value)
      ensures adminOpen ==> stockInputs == Restored(RenderStockInputs(list), EditsOf(old(stockInputs)))
      ensures adminOpen && FieldsDistinct(old(stockInputs)) && FieldsDistinct(RenderStockInputs(list))
              && (forall k :: 0 <= k < |old(stockInputs)| ==> DashFree(old(stockInputs)[k])) ==>
                stockInputs == RestoreByDashKey(RenderStockInputs(list), SavedByDashKey(old(stockInputs)))
      ensures !adminOpen ==> stockInputs == old(stockInputs)
    {
      products := list;
      if query == "" && brand == "" {
        FilterNothing(list);
        shown := list;
      } else {
        shown := Filter(list, query, brand);
      }
      ReconcileModal(list);
      ReconcileAdmin(list);
    }

    /** The product modal's part of `updateProductsDisplay`. */
    method ReconcileModal(list: seq<Listing>)
      requires Valid()
      modifies this`currentProduct, this`selectedSize, this`modalOpen
      ensures Valid()
      ensures !old(modalOpen) ==> unchanged(this`currentProduct, this`selectedSize, this`modalOpen)
      ensures old(modalOpen) && FindProduct(list, old(currentProduct).value.id).None? ==>
                !modalOpen && currentProduct.None? && selectedSize.None?
      ensures old(modalOpen) && FindProduct(list, old(currentProduct).value.id).Some? ==>
                modalOpen && currentProduct == FindProduct(list, old(currentProduct).value.id)
                && selectedSize == (if Truthy(old(selectedSize)) && !StillOffered(currentProduct.value, old(selectedSize).value)
                                    then None else old(selectedSize))
      ensures modalOpen ==> currentProduct.value in list
      ensures modalOpen && Truthy(selectedSize) ==> StillOffered(currentProduct.value, selectedSize.value)
    {
      if modalOpen {
        var updated := FindProduct(list, currentProduct.value.id);
        if updated.Some? {
          currentProduct := updated;
          if Truthy(selectedSize) && !StillOffered(updated.value, selectedSize.value) {
            selectedSize := None;
          }
        } else {
          modalOpen := false;
          currentProduct := None;
          selectedSize := None;
        }
      }
    }

    /** The admin panel's part of `updateProductsDisplay`: save the edits,
        render the panel again, write the edits back by field; on a panel
        whose ids and labels hold no '-', that is what the split key does
        too. */
    method ReconcileAdmin(list: seq<Listing>)
      modifies this`stockInputs
      ensures adminOpen ==> stockInputs == Restored(RenderStockInputs(list), EditsOf(old(stockInputs)))
      ensures adminOpen && FieldsDistinct(old(stockInputs)) && FieldsDistinct(RenderStockInputs(list))
              && (forall k :: 0 <= k < |old(stockInputs)| ==> DashFree(old(stockInputs)[k])) ==>
                stockInputs == RestoreByDashKey(RenderStockInputs(list), SavedByDashKey(old(stockInputs)))
      ensures !adminOpen ==> stockInputs == old(stockInputs)
    {
      if adminOpen && FieldsDistinct(stockInputs) && FieldsDistinct(RenderStockInputs(list))
         && forall k :: 0 <= k < |stockInputs| ==> DashFree(stockInputs[k])
      {
        DashKeyAgreesWithoutDash(stockInputs, RenderStockInputs(list));
      }
      if adminOpen {
        var saved := SaveEdits(stockInputs);
        stockInputs := RestoreEdits(RenderStockInputs(list), saved);
      }
    }

    /** `handleProductsUpdate`: the grid shows the whole new list, whatever
        the search box holds, and the brand menu is rebuilt; the modal and the
        admin panel are left as they were. */
    method HandleProductsUpdate(list: seq<Listing>)
      modifies this`products, this`shown, this`brandOptions, this`brand
      ensures products == list && shown == list
      ensures brandOptions == BrandOptions(list) && brand == RestoredBrand(old(brand), brandOptions)
    {
      products := list;
      shown := list;
      brandOptions := BrandOptions(list);
      brand := RestoredBrand(brand, brandOptions);
    }

    /** Opening the admin modal renders one input per size of the current
        list. */
    method OpenAdmin()
      modifies this`adminOpen, this`stockInputs
      ensures adminOpen && stockInputs == RenderStockInputs(products)
    {
      adminOpen := true;
      stockInputs := RenderStockInputs(products);
    }

    /** Typing `text` into input `k` (`handleStockInputChange`). */
    method EditStockInput(k: int, text: string)
      requires 0 <= k < |stockInputs|
      modifies this`stockInputs
      ensures stockInputs == old(stockInputs)[k := InputEdited(old(stockInputs)[k].(value := text))]
      ensures 0 <= NumberOf(stockInputs[k].value) <= 999
    {
      stockInputs := stockInputs[k := InputEdited(stockInputs[k].(value := text))];
    }

    /** The server accepted the batch: every input takes its value as its
        new original, loses its mark, and the admin modal closes. */
    method StockSaved()
      modifies this`stockInputs, this`adminOpen
      ensures stockInputs == MarkedSaved(old(stockInputs)) && !adminOpen
    {
      stockInputs := MarkedSaved(stockInputs);
      adminOpen := false;
    }
  }
}

=== FILE: feedback.dfy ===
/** User feedback on the storefront page (backend/public/app.js): the
    notification bar, which shows one message at a time and queues the rest,
    and the retry helper with exponential back-off. */
module Feedback {
  // ---------------------------------------------------------------------
  // Notifications

  /** One call of `showNotification(message, type, duration)`. */
  datatype Note = Note(message: string, kind: string, duration: int)

  /** What happens to the bar: the page asks for a note; the note on screen
      is hidden (its timer ran out, it was clicked, or Escape was pressed);
      the 300 ms timer that `hideNotification` started for the next note
      goes off. */
  datatype Event = Show(note: Note) | Hide | Fire

  /** The bar: whether a note is on screen, the queue, the notes taken off
      the queue whose timer has not gone off yet, every note put on screen,
      and every note the page asked for. */
  datatype Bar = Bar(showing: bool, queue: seq<Note>, pending: seq<Note>, displayed: seq<Note>,
                     requested: seq<Note>)

  const Idle := Bar(false, [], [], [], [])

  // As written.

  /** `showNotification` once the note is known: queued behind a note on
      screen, otherwise put on screen. */
  function Offer(b: Bar, n: Note): Bar {
    if b.showing then b.(queue := b.queue + [n]) else b.(showing := true, displayed := b.displayed + [n])
  }

  /** The bar as the page drives it. */
  function StepAsWritten(b: Bar, e: Event): Bar {
    match e
    case Show(n) => Offer(b.(requested := b.requested + [n]), n)
    case Hide =>
      if b.queue == [] then b.(showing := false)
      else b.(showing := false, queue := b.queue[1..], pending := b.pending + [b.queue[0]])
    case Fire =>
      if b.pending == [] then b else Offer(b.(pending := b.pending[1..]), b.pending[0])
  }

  function RunAsWritten(b: Bar, es: seq<Event>): Bar
    decreases |es|
  {
    if es == [] then b else RunAsWritten(StepAsWritten(b, es[0]), es[1..])
  }

  /** A note asked for during the 300 ms pause jumps ahead of the note that
      was taken off the queue, which goes back to the end of the queue: the
      page asks for A, B, C and shows A, C, B. */
  lemma AsWrittenReorders(a: Note, b: Note, c: Note)
    ensures var r := RunAsWritten(Idle, [Show(a), Show(b), Hide, Show(c), Fire, Hide, Fire]);
            r.requested == [a, b, c] && r.displayed == [a, c, b]
  {
    var es := [Show(a), Show(b), Hide, Show(c), Fire, Hide, Fire];
    var b0 := Idle;
    var b1 := StepAsWritten(b0, es[0]);
    var b2 := StepAsWritten(b1, es[1]);
    var b3 := StepAsWritten(b2, es[2]);
    var b4 := StepAsWritten(b3, es[3]);
    var b5 := StepAsWritten(b4, es[4]);
    var b6 := StepAsWritten(b5, es[5]);
    var b7 := StepAsWritten(b6, es[6]);
    assert b3.pending == [b] && b4.displayed == [a, c];
    assert b5.queue == [b] && b6.pending == [b];
    assert RunAsWritten(b0, es) == RunAsWritten(b1, es[1..]);
    assert RunAsWritten(b1, es[1..]) == RunAsWritten(b2, es[2..]);
    assert RunAsWritten(b2, es[2..]) == RunAsWritten(b3, es[3..]);
    assert RunAsWritten(b3, es[3..]) == RunAsWritten(b4, es[4..]);
    assert RunAsWritten(b4, es[4..]) == RunAsWritten(b5, es[5..]);
    assert RunAsWritten(b5, es[5..]) == RunAsWritten(b6, es[6..]);
    assert RunAsWritten(b6, es[6..]) == RunAsWritten(b7, es[7..]);
    assert es[7..] == [];
  }

  // Corrected: a note waiting for its timer keeps its place, and a hide
  // with nothing on screen does nothing.

  function Step(b: Bar, e: Event): Bar {
    match e
    case Show(n) =>
      var asked := b.(requested := b.requested + [n]);
      if b.showing || b.pending != [] then asked.(queue := b.queue + [n])
      else asked.(showing := true, displayed := b.displayed + [n])
    case Hide =>
      if !b.showing then b
      else if b.queue == [] then b.(showing := false)
      else b.(showing := false, queue := b.queue[1..], pending := b.pending + [b.queue[0]])
    case Fire =>
      if b.pending == [] then b
      else b.(showing := true, displayed := b.displayed + [b.pending[0]], pending := b.pending[1..])
  }

  function Run(b: Bar, es: seq<Event>): Bar
    decreases |es|
  {
    if es == [] then b else Run(Step(b, es[0]), es[1..])
  }

  /** Notes reach the screen in the order they were asked for: what was
      shown, then the note waiting for its timer, then the queue, is exactly
      what was asked for; at most one note waits for a timer, and only while
      nothing is on screen; and a bar with nothing on screen and nothing
      waiting has an empty queue. */
  predicate InOrder(b: Bar) {
    && b.displayed + b.pending + b.queue == b.requested
    && |b.pending| <= 1
    && (b.pending != [] ==> !b.showing)
    && (!b.showing && b.pending == [] ==> b.queue == [])
  }

  lemma StepKeepsOrder(b: Bar, e: Event)
    requires InOrder(b)
    ensures InOrder(Step(b, e))
  {
    match e
    case Show(n) =>
      assert b.displayed + b.pending + (b.queue + [n]) == b.requested + [n];
    case Hide =>
      if b.showing && b.queue != [] {
        assert b.queue == [b.queue[0]] + b.queue[1..];
      }
    case Fire =>
      if b.pending != [] {
        assert b.pending == [b.pending[0]];
      }
  }

  lemma {:induction false} RunKeepsOrder(b: Bar, es: seq<Event>)
    requires InOrder(b)
    ensures InOrder(Run(b, es))
    ensures |Run(b, es).displayed| <= |Run(b, es).requested|
    ensures Run(b, es).displayed == Run(b, es).requested[..|Run(b, es).displayed|]
    decreases |es|
  {
    if es != [] {
      StepKeepsOrder(b, es[0]);
      RunKeepsOrder(Step(b, es[0]), es[1..]);
    }
    var r := Run(b, es);
    assert r.requested == r.displayed + (r.pending + r.queue);
  }

  /** Hiding the note on screen and letting the timer go off shows the head
      of the queue. */
  lemma HideThenFireShowsNext(b: Bar)
    requires InOrder(b) && b.showing && b.queue != []
    ensures Step(Step(b, Hide), Fire).displayed == b.displayed + [b.queue[0]]
    ensures Step(Step(b, Hide), Fire).queue == b.queue[1..]
  {
  }

  /** On the events that reorder the notes as written, the corrected bar
      shows A, B, C. */
  lemma CorrectedKeepsOrder(a: Note, b: Note, c: Note)
    ensures Run(Idle, [Show(a), Show(b), Hide, Show(c), Fire, Hide, Fire]).displayed == [a, b, c]
  {
    var es := [Show(a), Show(b), Hide, Show(c), Fire, Hide, Fire];
    var b0 := Idle;
    var b1 := Step(b0, es[0]);
    var b2 := Step(b1, es[1]);
    var b3 := Step(b2, es[2]);
    var b4 := Step(b3, es[3]);
    var b5 := Step(b4, es[4]);
    var b6 := Step(b5, es[5]);
    var b7 := Step(b6, es[6]);
    assert b4.queue == [c] && b5.displayed == [a, b];
    assert b6.pending == [c];
    assert Run(b0, es) == Run(b1, es[1..]);
    assert Run(b1, es[1..]) == Run(b2, es[2..]);
    assert Run(b2, es[2..]) == Run(b3, es[3..]);
    assert Run(b3, es[3..]) == Run(b4, es[4..]);
    assert Run(b4, es[4..]) == Run(b5, es[5..]);
    assert Run(b5, es[5..]) == Run(b6, es[6..]);
    assert Run(b6, es[6..]) == Run(b7, es[7..]);
    assert es[7..] == [];
  }

  /** The notification bar of the page, with the corrected hand-over. */
  class Notifier {
    var showing: bool
    var queue: seq<Note>
    var pending: seq<Note>
    var displayed: seq<Note>
    ghost var requested: seq<Note>

    ghost function State(): Bar
      reads this
    {
      Bar(showing, queue, pending, displayed, requested)
    }

    ghost predicate Valid()
      reads this
    {
      InOrder(State())
    }

    constructor()
      ensures Valid() && State() == Idle
    {
      showing := false;
      queue := [];
      pending := [];
      displayed := [];
      requested := [];
    }

    /** `showNotification`. */
    method ShowNote(n: Note)
      requires Valid()
      modifies this
      ensures Valid() && State() == Step(old(State()), Show(n))
      ensures requested == old(requested) + [n]
    {
      StepKeepsOrder(State(), Show(n));
      requested := requested + [n];
      if showing || pending != [] {
        queue := queue + [n];
      } else {
        showing := true;
        displayed := displayed + [n];
      }
    }

    /** `hideNotification`. */
    method HideNote()
      requires Valid()
      modifies this
      ensures Valid() && State() == Step(old(State()), Hide)
    {
      StepKeepsOrder(State(), Hide);
      if showing {
        showing := false;
        if queue != [] {
          pending := pending + [queue[0]];
          queue := queue[1..];
        }
      }
    }

    /** The 300 ms timer started by `hideNotification` goes off. */
    method TimerFired()
      requires Valid()
      modifies this
      ensures Valid() && State() == Step(old(State()), Fire)
    {
      StepKeepsOrder(State(), Fire);
      if pending != [] {
        showing := true;
        displayed := displayed + [pending[0]];
        pending := pending[1..];
      }
    }
  }

  // ---------------------------------------------------------------------
  // Retrying an operation

  /** `ErrorRecovery.maxRetries`. */
  const MaxRetries := 3

  /** What one call of the operation does: resolve with a value or reject
      with an error message. */
  datatype Outcome = Resolved(value: int) | Rejected(message: string)

  /** What `retryOperation` does in the end. */
  datatype RetryResult = Returned(value: int) | Threw(message: string)

  /** The outcome of call `i`; a call the list does not cover rejects. */
  function OutcomeAt(outcomes: seq<Outcome>, i: nat): Outcome {
    if i < |outcomes| then outcomes[i] else Rejected("")
  }

  predicate FailedBefore(outcomes: seq<Outcome>, n: nat) {
    forall i :: 0 <= i < n ==> OutcomeAt(outcomes, i).Rejected?
  }

  function Pow2(n: nat): nat {
    if n == 0 then 1 else 2 * Pow2(n - 1)
  }

  /** The waits after the first `n` failed calls: `2^i * 1000` ms after
      call `i`. */
  function Backoff(n: nat): (r: seq<int>)
    ensures |r| == n
  {
    if n == 0 then [] else Backoff(n - 1) + [Pow2(n - 1) * 1000]
  }

  function Total(ds: seq<int>): int {
    if ds == [] then 0 else Total(ds[..|ds| - 1]) + ds[|ds| - 1]
  }

  /** `retryOperation`: the operation is called until it resolves, at most
      `maxRetries + 1` times, waiting `2^i` seconds after failed call `i`
      unless it was the last; the first value is returned, or, when every
      call failed, an error naming the number of calls and the last error. */
  method RetryOperation(context: string, outcomes: seq<Outcome>) returns (result: RetryResult, calls: nat, waits: seq<int>)
    ensures 1 <= calls <= MaxRetries + 1
    ensures FailedBefore(outcomes, calls - 1)
    ensures result.Returned? <==> OutcomeAt(outcomes, calls - 1).Resolved?
    ensures result.Returned? ==> result.value == OutcomeAt(outcomes, calls - 1).value
    ensures result.Threw? ==> (calls == MaxRetries + 1
              && result.message == context + " falló después de 4 intentos: " + OutcomeAt(outcomes, MaxRetries).message)
    ensures waits == Backoff(calls - 1)
  {
    var i := 0;
    waits := [];
    result, calls := Threw(""), 1;
    while i <= MaxRetries
      invariant 0 <= i <= MaxRetries
      invariant FailedBefore(outcomes, i)
      invariant waits == Backoff(i)
      decreases MaxRetries - i
    {
      var o := OutcomeAt(outcomes, i);
      if o.Resolved? {
        return Returned(o.value), i + 1, waits;
      }
      if i == MaxRetries {
        return Threw(context + " falló después de 4 intentos: " + o.message), i + 1, waits;
      }
      waits := waits + [Pow2(i) * 1000];
      i := i + 1;
    }
    assert false;
  }

  /** The waits add up to `(2^n - 1)` seconds: at most seven. */
  lemma {:induction false} BackoffTotal(n: nat)
    ensures Total(Backoff(n)) == (Pow2(n) - 1) * 1000
  {
    if n > 0 {
      BackoffTotal(n - 1);
      var ds := Backoff(n);
      assert ds[..|ds| - 1] == Backoff(n - 1);
    }
  }
}

=== FILE: inventory.dfy ===
/** The admin mutation routes of server.js. Each route checks the shared
    password, validates its input, changes the two tables (inside one
    transaction where the route opens one) and, only on success, broadcasts
    the whole product list. */
module Inventory {
  import opened Wrappers
  import opened Text
  import opened Catalog

  /** The HTTP status a route answers with. */
  datatype Status = Ok | BadRequest | Unauthorized | NotFound | ServerError

  /** One element of `updates` in `PUT /api/admin/stock`, as the route reads
      it: `None` for a missing field or a `parseInt` that gives `NaN`. */
  datatype StockEntry = StockEntry(productId: Option<int>, size: Option<string>, stock: Option<int>)

  /** The `product` object of `POST /api/admin/products`; `price` is the
      parsed price in cents, `None` for `NaN`. */
  datatype ProductInput = ProductInput(title: Option<string>, brand: Option<string>, price: Option<int>,
                                       imageUrl: Option<string>)

  /** One element of its `sizes` array. */
  datatype SizeInput = SizeInput(size: Option<string>, stock: Option<int>)

  /** A size of a new product once cleaned. */
  datatype NewSize = NewSize(size: string, stock: int)

  /** One row write: set `row` to `stock`, inserting the row if absent. */
  datatype Upsert = Upsert(row: Row, stock: int)

  /** `parseInt(update.stock) || 0`. */
  function StockOf(e: StockEntry): int {
    e.stock.GetOr(0)
  }

  /** The per-entry check of the stock route: a product id that is neither
      `NaN` nor 0, a size that is not blank once trimmed, a stock that is not
      negative. */
  predicate EntryValid(e: StockEntry) {
    && e.productId.Some? && e.productId.value != 0
    && e.size.Some? && Trim(e.size.value) != ""
    && StockOf(e) >= 0
  }

  function ToUpsert(e: StockEntry): Upsert
    requires EntryValid(e)
  {
    Upsert(Row(e.productId.value, Trim(e.size.value)), StockOf(e))
  }

  function ToUpserts(es: seq<StockEntry>): (r: seq<Upsert>)
    requires forall k :: 0 <= k < |es| ==> EntryValid(es[k])
    ensures |r| == |es| && forall k :: 0 <= k < |es| ==> r[k] == ToUpsert(es[k])
  {
    seq(|es|, k requires 0 <= k < |es| => ToUpsert(es[k]))
  }

  predicate EntryAccepted(products: map<int, Product>, e: StockEntry) {
    EntryValid(e) && e.productId.value in products
  }

  /** The stock batch commits: every entry passes the check and names an
      existing product (an insert for a missing one breaks the foreign key). */
  predicate BatchAccepted(products: map<int, Product>, es: seq<StockEntry>) {
    forall k :: 0 <= k < |es| ==> EntryAccepted(products, es[k])
  }

  /** The table after writing each upsert in turn. */
  function Upserted(stock: Stock, us: seq<Upsert>): Stock
    decreases |us|
  {
    if us == [] then stock else Upserted(stock[us[0].row := us[0].stock], us[1..])
  }

  function WrittenRows(us: seq<Upsert>): set<Row> {
    set u | u in us :: u.row
  }

  /** Upsert `j` is the last one that writes row `k`. */
  predicate LastWrite(us: seq<Upsert>, k: Row, j: int) {
    0 <= j < |us| && us[j].row == k && forall j' :: j < j' < |us| ==> us[j'].row != k
  }

  /** What a batch of upserts does: the rows written are added, each takes
      the stock of its last write, and every other row keeps its stock. */
  lemma {:induction false} UpsertedSemantics(stock: Stock, us: seq<Upsert>)
    ensures Upserted(stock, us).Keys == stock.Keys + WrittenRows(us)
    ensures forall k, j :: LastWrite(us, k, j) ==> Upserted(stock, us)[k] == us[j].stock
    ensures forall k :: k in stock && k !in WrittenRows(us) ==> Upserted(stock, us)[k] == stock[k]
    decreases |us|
  {
    if us != [] {
      var s1 := stock[us[0].row := us[0].stock];
      var rest := us[1..];
      UpsertedSemantics(s1, rest);
      assert WrittenRows(us) == {us[0].row} + WrittenRows(rest) by {
        assert forall u :: u in us <==> u == us[0] || u in rest;
      }
      forall k, j | LastWrite(us, k, j) ensures Upserted(stock, us)[k] == us[j].stock {
        if j == 0 {
          assert k !in WrittenRows(rest) by {
            forall u | u in rest ensures u.row != k {
              var j' :| 0 <= j' < |rest| && rest[j'] == u;
              assert us[j' + 1] == u;
            }
          }
        } else {
          assert LastWrite(rest, k, j - 1);
        }
      }
    }
  }

  lemma {:induction false} LastWriteExists(us: seq<Upsert>, k: Row)
    requires k in WrittenRows(us)
    ensures exists j :: LastWrite(us, k, j)
  {
    var last := us[|us| - 1];
    if last.row == k {
      assert LastWrite(us, k, |us| - 1);
    } else {
      var init := us[..|us| - 1];
      assert k in WrittenRows(init) by {
        var u :| u in us && u.row == k;
        var j :| 0 <= j < |us| && us[j] == u;
        assert init[j] == u;
      }
      LastWriteExists(init, k);
      var j :| LastWrite(init, k, j);
      assert LastWrite(us, k, j);
    }
  }

  /** Applying the same batch a second time leaves the table as the first
      application left it. */
  lemma UpsertIdempotent(stock: Stock, us: seq<Upsert>)
    ensures Upserted(Upserted(stock, us), us) == Upserted(stock, us)
  {
    var once := Upserted(stock, us);
    var twice := Upserted(once, us);
    UpsertedSemantics(stock, us);
    UpsertedSemantics(once, us);
    forall k | k in twice ensures twice[k] == once[k] {
      if k in WrittenRows(us) {
        LastWriteExists(us, k);
      }
    }
  }

  lemma {:induction false} UpsertedSnoc(stock: Stock, us: seq<Upsert>, u: Upsert)
    ensures Upserted(stock, us + [u]) == Upserted(stock, us)[u.row := u.stock]
    decreases |us|
  {
    if us != [] {
      assert (us + [u])[1..] == us[1..] + [u];
      UpsertedSnoc(stock[us[0].row := us[0].stock], us[1..], u);
    }
  }

  /** `x ? x.toString().trim() : ''`. */
  function CleanText(x: Option<string>): (r: string)
    ensures IsTrimmed(r)
  {
    match x
    case None => ""
    case Some(s) => Trim(s)
  }

  /** One element of `sizes.map(...)`: the trimmed label, and the stock
      `size.stock ? parseInt(size.stock) : 0`. */
  function CleanSize(s: SizeInput): NewSize {
    NewSize(CleanText(s.size), s.stock.GetOr(0))
  }

  /** `cleanSizes`: every size cleaned, those with a blank label dropped, in
      request order. Stock is not checked: a negative stock passes. */
  function CleanSizes(sizes: seq<SizeInput>): (r: seq<NewSize>)
    ensures |r| <= |sizes|
    ensures forall c :: c in r ==> c.size != "" && IsTrimmed(c.size)
    ensures forall s :: s in sizes && CleanSize(s).size != "" ==> CleanSize(s) in r
    ensures forall c :: c in r ==> exists s :: s in sizes && CleanSize(s) == c
  {
    if sizes == [] then []
    else
      var c := CleanSize(sizes[0]);
      var rest := CleanSizes(sizes[1..]);
      assert forall s :: s in sizes ==> s == sizes[0] || s in sizes[1..];
      (if c.size != "" then [c] else []) + rest
  }

  predicate DistinctLabels(cs: seq<NewSize>) {
    forall i, j :: 0 <= i < j < |cs| ==> cs[i].size != cs[j].size
  }

  /** The inserts of a new product's sizes, as upserts. */
  function SizeUpserts(id: int, cs: seq<NewSize>): (r: seq<Upsert>)
    ensures |r| == |cs| && forall k :: 0 <= k < |cs| ==> r[k] == Upsert(Row(id, cs[k].size), cs[k].stock)
  {
    seq(|cs|, k requires 0 <= k < |cs| => Upsert(Row(id, cs[k].size), cs[k].stock))
  }

  /** Inserting the distinct sizes of a product that has no rows yet gives
      that product exactly those sizes, each with its stock, and leaves every
      other row as it was. */
  lemma InsertedSizes(stock: Stock, id: int, cs: seq<NewSize>)
    requires forall r :: r in stock ==> r.productId != id
    requires DistinctLabels(cs)
    ensures LabelsOf(Upserted(stock, SizeUpserts(id, cs)), id) == set c | c in cs :: c.size
    ensures forall k :: 0 <= k < |cs| ==> Row(id, cs[k].size) in Upserted(stock, SizeUpserts(id, cs))
    ensures forall k :: 0 <= k < |cs| ==> Upserted(stock, SizeUpserts(id, cs))[Row(id, cs[k].size)] == cs[k].stock
    ensures forall r :: r in stock ==> r in Upserted(stock, SizeUpserts(id, cs)) && Upserted(stock, SizeUpserts(id, cs))[r] == stock[r]
    ensures forall r :: r in Upserted(stock, SizeUpserts(id, cs)) ==> r in stock || r.productId == id
  {
    InsertedStocks(stock, id, cs);
    InsertedLabels(stock, id, cs);
  }

  /** Each inserted label holds its own stock, and the other rows keep
      theirs. */
  lemma InsertedStocks(stock: Stock, id: int, cs: seq<NewSize>)
    requires forall r :: r in stock ==> r.productId != id
    requires DistinctLabels(cs)
    ensures forall k :: 0 <= k < |cs| ==> Row(id, cs[k].size) in Upserted(stock, SizeUpserts(id, cs))
    ensures forall k :: 0 <= k < |cs| ==> Upserted(stock, SizeUpserts(id, cs))[Row(id, cs[k].size)] == cs[k].stock
    ensures forall r :: r in stock ==> r in Upserted(stock, SizeUpserts(id, cs)) && Upserted(stock, SizeUpserts(id, cs))[r] == stock[r]
  {
    var us := SizeUpserts(id, cs);
    UpsertedSemantics(stock, us);
    forall k | 0 <= k < |cs| ensures Row(id, cs[k].size) in Upserted(stock, us) && Upserted(stock, us)[Row(id, cs[k].size)] == cs[k].stock {
      assert us[k] in us;
      assert LastWrite(us, Row(id, cs[k].size), k);
    }
  }

  /** The new product's labels are exactly the inserted ones, and every new
      row is the new product's. */
  lemma InsertedLabels(stock: Stock, id: int, cs: seq<NewSize>)
    requires forall r :: r in stock ==> r.productId != id
    ensures LabelsOf(Upserted(stock, SizeUpserts(id, cs)), id) == set c | c in cs :: c.size
    ensures forall r :: r in Upserted(stock, SizeUpserts(id, cs)) ==> r in stock || r.productId == id
  {
    var us := SizeUpserts(id, cs);
    var after := Upserted(stock, us);
    UpsertedSemantics(stock, us);
    forall w | w in WrittenRows(us) ensures w.productId == id && exists c :: c in cs && c.size == w.size {
      var u :| u in us && u.row == w;
      var j :| 0 <= j < |us| && us[j] == u;
      assert cs[j] in cs;
    }
    forall l | l in (set c | c in cs :: c.size) ensures l in LabelsOf(after, id) {
      var c :| c in cs && c.size == l;
      var j :| 0 <= j < |cs| && cs[j] == c;
      assert us[j].row == Row(id, l);
      assert Row(id, l) in WrittenRows(us);
    }
  }

  /** The product a create request inserts. */
  function CleanProduct(p: ProductInput): Product {
    Product(CleanText(p.title), CleanText(p.brand), p.price.GetOr(0), CleanText(p.imageUrl))
  }

  /** Title, brand and image URL are not blank and the price is a positive
      number. */
  predicate ProductFieldsValid(p: ProductInput) {
    && CleanText(p.title) != "" && CleanText(p.brand) != "" && CleanText(p.imageUrl) != ""
    && p.price.Some? && p.price.value > 0
  }

  predicate TitleTaken(products: map<int, Product>, title: string) {
    exists id :: id in products && products[id].title == title
  }

  /** Every reason the create route answers 400 before it writes anything. */
  predicate CreateRejected(product: Option<ProductInput>, sizes: Option<seq<SizeInput>>,
                           products: map<int, Product>) {
    || product.None?
    || !ProductFieldsValid(product.value)
    || sizes.None? || sizes.value == []
    || CleanSizes(sizes.value) == []
    || TitleTaken(products, CleanText(product.value.title))
  }


  /** A stored product: fields trimmed and not blank, price positive. */
  ghost predicate ProductClean(p: Product) {
    && p.title != "" && IsTrimmed(p.title) && p.brand != "" && IsTrimmed(p.brand)
    && p.imageUrl != "" && IsTrimmed(p.imageUrl) && p.price > 0
  }

  /** `password !== process.env.ADMIN_PASSWORD`: a request is let through
      exactly when it carries the variable's value; with the variable
      unset, that is exactly a request without a password. */
  predicate PasswordAccepted(adminPassword: Option<string>, password: Option<string>) {
    password == adminPassword
  }

  /** A malformed add-size request: an id that is `NaN` or not positive, a
      missing or blank size, or a negative stock. */
  predicate AddSizeMalformed(id: Option<int>, size: Option<string>, stock: Option<int>) {
    id.None? || id.value <= 0 || size.None? || Trim(size.value) == "" || stock.GetOr(0) < 0
  }

  /** A malformed remove-size request: an id that is `NaN` or not positive,
      or a blank size. */
  predicate RemoveSizeMalformed(id: Option<int>, size: string) {
    id.None? || id.value <= 0 || Trim(size) == ""
  }

  /** What every route of this revision keeps: ids below the
      AUTO_INCREMENT counter and the foreign key from sizes to products (the
      schema's own constraints), together with at least one size per
      product, trimmed non-blank labels and clean product fields (which the
      routes' validation, not the schema, guarantees). Titles need not be
      unique: the schema has no such key, and the seeded rows share one. */
  ghost predicate Consistent(products: map<int, Product>, stock: Stock, nextId: int) {
    && nextId >= 1
    && IdsBelow(products, nextId)
    && (forall r :: r in stock ==> r.productId in products)
    && (forall id :: id in products ==> LabelsOf(stock, id) != {})
    && (forall r :: r in stock ==> r.size != "" && IsTrimmed(r.size))
    && (forall id :: id in products ==> ProductClean(products[id]))
  }

  /** No two products share a title. The create route's check keeps this,
      but the schema does not demand it. */
  predicate UniqueTitles(products: map<int, Product>) {
    forall a, b :: a in products && b in products && a != b ==> products[a].title != products[b].title
  }

  /** A create whose title is not taken keeps titles unique; the other
      routes leave titles alone or only remove products. */
  lemma CreateKeepsTitlesUnique(products: map<int, Product>, nextId: int, p: Product)
    requires UniqueTitles(products) && !TitleTaken(products, p.title) && nextId !in products
    ensures UniqueTitles(products[nextId := p])
  {
    var ps := products[nextId := p];
    forall a, b | a in ps && b in ps && a != b ensures ps[a].title != ps[b].title {
      if a == nextId {
        assert products[b].title != p.title;
      } else if b == nextId {
        assert products[a].title != p.title;
      }
    }
  }

  lemma LabelsGrow(s1: Stock, s2: Stock, id: int)
    requires s1.Keys <= s2.Keys
    ensures LabelsOf(s1, id) <= LabelsOf(s2, id)
  {
  }

  /** Adding rows (and overwriting stocks) of existing products, with clean
      labels, keeps the tables consistent. */
  lemma GrowStockKeepsConsistent(products: map<int, Product>, stock: Stock, grown: Stock, nextId: int)
    requires Consistent(products, stock, nextId)
    requires stock.Keys <= grown.Keys
    requires forall r :: r in grown ==> r.productId in products && r.size != "" && IsTrimmed(r.size)
    ensures Consistent(products, grown, nextId)
  {
    forall id | id in products ensures LabelsOf(grown, id) != {} {
      LabelsGrow(stock, grown, id);
    }
  }

  /** A created product with clean fields and at least one distinct clean
      size keeps the tables consistent. */
  lemma CreateKeepsConsistent(products: map<int, Product>, stock: Stock, nextId: int, p: Product, cs: seq<NewSize>)
    requires Consistent(products, stock, nextId)
    requires ProductClean(p)
    requires cs != [] && DistinctLabels(cs) && forall c :: c in cs ==> c.size != "" && IsTrimmed(c.size)
    ensures Consistent(products[nextId := p], Upserted(stock, SizeUpserts(nextId, cs)), nextId + 1)
  {
    var after := Upserted(stock, SizeUpserts(nextId, cs));
    var ps := products[nextId := p];
    CreatedRowsClean(products, stock, nextId, cs);
    assert cs[0] in cs;
    assert cs[0].size in LabelsOf(after, nextId);
    forall id | id in ps && id != nextId ensures LabelsOf(after, id) != {} {
      LabelsGrow(stock, after, id);
    }
  }

  /** The rows a create adds belong to the new product and carry clean
      labels; the rows before it are all kept. */
  lemma CreatedRowsClean(products: map<int, Product>, stock: Stock, nextId: int, cs: seq<NewSize>)
    requires forall r :: r in stock ==> r.productId in products && r.size != "" && IsTrimmed(r.size)
    requires IdsBelow(products, nextId)
    requires DistinctLabels(cs) && forall c :: c in cs ==> c.size != "" && IsTrimmed(c.size)
    ensures stock.Keys <= Upserted(stock, SizeUpserts(nextId, cs)).Keys
    ensures LabelsOf(Upserted(stock, SizeUpserts(nextId, cs)), nextId) == set c | c in cs :: c.size
    ensures forall r :: r in Upserted(stock, SizeUpserts(nextId, cs)) ==>
              (r.productId in products || r.productId == nextId) && r.size != "" && IsTrimmed(r.size)
  {
    var after := Upserted(stock, SizeUpserts(nextId, cs));
    InsertedSizes(stock, nextId, cs);
    forall r | r in after && r !in stock ensures r.productId == nextId && r.size != "" && IsTrimmed(r.size) {
      assert r.size in LabelsOf(after, nextId);
      var c :| c in cs && c.size == r.size;
    }
  }

  /** The rows the foreign key's ON DELETE CASCADE leaves. */
  function Cascade(stock: Stock, id: int): Stock {
    map r | r in stock && r.productId != id :: stock[r]
  }

  /** Deleting a product with its rows keeps the tables consistent. */
  lemma DeleteKeepsConsistent(products: map<int, Product>, stock: Stock, nextId: int, id: int)
    requires Consistent(products, stock, nextId)
    ensures Consistent(products - {id}, Cascade(stock, id), nextId)
  {
    var kept := Cascade(stock, id);
    forall a | a in products && a != id ensures LabelsOf(kept, a) != {} {
      var l :| l in LabelsOf(stock, a);
      var r :| r in stock && r.productId == a && r.size == l;
      assert l in LabelsOf(kept, a);
    }
  }

  /** Removing a row of a product that has another one keeps the tables
      consistent. */
  lemma RemoveKeepsConsistent(products: map<int, Product>, stock: Stock, nextId: int, row: Row)
    requires Consistent(products, stock, nextId)
    requires row in stock && |LabelsOf(stock, row.productId)| > 1
    ensures Consistent(products, stock - {row}, nextId)
    ensures LabelsOf(stock - {row}, row.productId) == LabelsOf(stock, row.productId) - {row.size}
  {
    var kept := stock - {row};
    assert LabelsOf(kept, row.productId) == LabelsOf(stock, row.productId) - {row.size};
    assert |LabelsOf(stock, row.productId) - {row.size}| >= 1;
    forall a | a in products && a != row.productId ensures LabelsOf(kept, a) == LabelsOf(stock, a) {
    }
  }

  /** The body of the stock transaction on a working copy of the table:
      `accepted` is false at the first entry that fails the check or names a
      missing product, and the copy is then discarded. */
  method StageStockBatch(products: map<int, Product>, stock: Stock, es: seq<StockEntry>)
    returns (accepted: bool, work: Stock)
    requires forall r :: r in stock ==> r.productId in products && r.size != "" && IsTrimmed(r.size)
    ensures accepted <==> BatchAccepted(products, es)
    ensures accepted ==> work == Upserted(stock, ToUpserts(es))
    ensures accepted ==> stock.Keys <= work.Keys
    ensures accepted ==> forall r :: r in work ==> r.productId in products && r.size != "" && IsTrimmed(r.size)
  {
    work := stock;
    ghost var us: seq<Upsert> := [];
    var i := 0;
    while i < |es|
      invariant 0 <= i <= |es| && |us| == i
      invariant forall k :: 0 <= k < i ==> EntryAccepted(products, es[k]) && us[k] == ToUpsert(es[k])
      invariant work == Upserted(stock, us)
      invariant forall r :: r in work ==> r.productId in products && r.size != "" && IsTrimmed(r.size)
      invariant stock.Keys <= work.Keys
    {
      var e := es[i];
      if !EntryValid(e) {
        return false, stock;
      }
      var row := Row(e.productId.value, Trim(e.size.value));
      if row !in work && row.productId !in products {
        return false, stock;
      }
      UpsertedSnoc(stock, us, Upsert(row, StockOf(e)));
      work := work[row := StockOf(e)];
      us := us + [Upsert(row, StockOf(e))];
      i := i + 1;
    }
    assert us == ToUpserts(es);
    accepted := true;
  }

  /** The size inserts of the create transaction on a working copy of the
      table, for a product `id` that has no rows yet: `accepted` is false
      at the first label already inserted (the unique key on product and
      size). */
  method StageSizes(stock: Stock, id: int, cs: seq<NewSize>) returns (accepted: bool, work: Stock)
    requires forall r :: r in stock ==> r.productId != id
    ensures accepted <==> DistinctLabels(cs)
    ensures accepted ==> work == Upserted(stock, SizeUpserts(id, cs))
  {
    work := stock;
    for i := 0 to |cs|
      invariant DistinctLabels(cs[..i]) && work == Upserted(stock, SizeUpserts(id, cs[..i]))
    {
      StageSizesStep(stock, id, cs, i);
      if Row(id, cs[i].size) in work {
        return false, work;
      }
      work := work[Row(id, cs[i].size) := cs[i].stock];
    }
    assert cs[..|cs|] == cs;
    accepted := true;
  }

  /** One insert of the create transaction: a label already inserted breaks
      the unique key; otherwise the labels so far stay distinct and the row
      is added. */
  lemma StageSizesStep(stock: Stock, id: int, cs: seq<NewSize>, i: int)
    requires forall r :: r in stock ==> r.productId != id
    requires 0 <= i < |cs| && DistinctLabels(cs[..i])
    ensures Row(id, cs[i].size) in Upserted(stock, SizeUpserts(id, cs[..i])) ==> !DistinctLabels(cs)
    ensures Row(id, cs[i].size) !in Upserted(stock, SizeUpserts(id, cs[..i])) ==>
              DistinctLabels(cs[..i + 1])
              && Upserted(stock, SizeUpserts(id, cs[..i + 1]))
                 == Upserted(stock, SizeUpserts(id, cs[..i]))[Row(id, cs[i].size) := cs[i].stock]
  {
    if Row(id, cs[i].size) in Upserted(stock, SizeUpserts(id, cs[..i])) {
      RepeatedInsert(stock, id, cs, i);
    } else {
      FreshInsert(stock, id, cs, i);
    }
  }

  lemma RepeatedInsert(stock: Stock, id: int, cs: seq<NewSize>, i: int)
    requires forall r :: r in stock ==> r.productId != id
    requires 0 <= i < |cs| && Row(id, cs[i].size) in Upserted(stock, SizeUpserts(id, cs[..i]))
    ensures !DistinctLabels(cs)
  {
    var row := Row(id, cs[i].size);
    var done := SizeUpserts(id, cs[..i]);
    UpsertedSemantics(stock, done);
    var u :| u in done && u.row == row;
    var j :| 0 <= j < i && done[j] == u;
    assert cs[j].size == cs[i].size;
  }

  lemma FreshInsert(stock: Stock, id: int, cs: seq<NewSize>, i: int)
    requires 0 <= i < |cs| && DistinctLabels(cs[..i])
    requires Row(id, cs[i].size) !in Upserted(stock, SizeUpserts(id, cs[..i]))
    ensures DistinctLabels(cs[..i + 1])
    ensures Upserted(stock, SizeUpserts(id, cs[..i + 1]))
            == Upserted(stock, SizeUpserts(id, cs[..i]))[Row(id, cs[i].size) := cs[i].stock]
  {
    var row := Row(id, cs[i].size);
    var done := SizeUpserts(id, cs[..i]);
    assert cs[..i + 1] == cs[..i] + [cs[i]];
    assert SizeUpserts(id, cs[..i + 1]) == done + [Upsert(row, cs[i].stock)];
    UpsertedSnoc(stock, done, Upsert(row, cs[i].stock));
    UpsertedSemantics(stock, done);
    forall a | 0 <= a < i ensures cs[a].size != cs[i].size {
      assert done[a] in done;
    }
  }

  /** The database of server.js together with the broadcasts it has made. */
  class InventoryService {
    /** `process.env.ADMIN_PASSWORD`, `None` when it is not set. */
    const adminPassword: Option<string>
    var products: map<int, Product>
    var stock: Stock
    /** The next value of the `products` AUTO_INCREMENT counter. */
    var nextId: int
    /** Every `io.emit`, oldest first. */
    var log: seq<Broadcast>

    ghost predicate Valid()
      reads this`products, this`stock, this`nextId
    {
      Consistent(products, stock, nextId)
    }

    /** The list `getProductsWithSizes` returns now. */
    function CurrentList(): (r: seq<Listing>)
      reads this`products, this`stock, this`nextId
      requires Valid()
      ensures Reflects(r, products, stock)
      ensures forall i, j :: 0 <= i < j < |r| ==> r[i].id > r[j].id
    {
      NewestFirst(products, stock, nextId)
    }

    /** The counters of `GET /api/admin/stats`, each a query over one
        table: the products counted, and the rows of `product_sizes` summed
        and counted by stock. */
    function Stats(): (r: Stats)
      reads this`products, this`stock, this`nextId
      requires Valid()
      ensures r.totalProducts == |products|
      ensures r.outOfStockSizes == |TableRows(stock, Zero)|
      ensures r.lowStockSizes == |TableRows(stock, Low)|
      ensures r.outOfStockSizes + r.lowStockSizes <= |stock|
      ensures r.totalStock == Sum(StockValues(CurrentList()))
      ensures Enumerates(ListedRows(CurrentList()), StockValues(CurrentList()), stock)
      ensures forall row :: row in stock <==> row in ListedRows(CurrentList())
    {
      var cat := CurrentList();
      StatsCountTables(cat, products, stock);
      ListShowsTable(cat, products, stock);
      StatsOf(cat)
    }

    constructor (adminPassword: Option<string>)
      ensures Valid() && this.adminPassword == adminPassword
      ensures products == map[] && stock == map[] && nextId == 1 && log == []
    {
      this.adminPassword := adminPassword;
      products, stock, nextId, log := map[], map[], 1, [];
    }

    /** Commits a transaction's tables and emits `event` with the product
        list they give. */
    method Commit(newProducts: map<int, Product>, newStock: Stock, event: Event)
      requires Consistent(newProducts, newStock, nextId)
      modifies this`products, this`stock, this`log
      ensures Valid() && products == newProducts && stock == newStock
      ensures log == old(log) + [Broadcast(event, CurrentList())]
    {
      products, stock := newProducts, newStock;
      log := log + [Broadcast(event, CurrentList())];
    }

    /** `PUT /api/admin/stock`: every entry is checked and upserted in one
        transaction; the first bad entry or missing product rolls it all
        back. */
    method UpdateStock(password: Option<string>, updates: Option<seq<StockEntry>>) returns (status: Status)
      requires Valid()
      modifies this`products, this`stock, this`log
      ensures Valid()
      ensures products == old(products)
      ensures !PasswordAccepted(adminPassword, password) ==> status == Unauthorized
      ensures PasswordAccepted(adminPassword, password) && updates.None? ==> status == BadRequest
      ensures (PasswordAccepted(adminPassword, password) && updates.Some? && !BatchAccepted(products, updates.value))
                ==> status == ServerError
      ensures status == Ok <==> (PasswordAccepted(adminPassword, password) && updates.Some? && BatchAccepted(products, updates.value))
      ensures status == Ok ==>
                && stock == Upserted(old(stock), ToUpserts(updates.value))
                && log == old(log) + [Broadcast(StockUpdated, CurrentList())]
      ensures status != Ok ==> stock == old(stock) && log == old(log)
    {
      if !PasswordAccepted(adminPassword, password) {
        return Unauthorized;
      }
      if updates.None? {
        return BadRequest;
      }
      var accepted, work := StageStockBatch(products, stock, updates.value);
      if !accepted {
        return ServerError;
      }
      GrowStockKeepsConsistent(products, stock, work, nextId);
      Commit(products, work, StockUpdated);
      status := Ok;
    }

    /** `POST /api/admin/products`: validation, then one transaction that
        inserts the product and its sizes; a repeated label breaks the
        unique key and rolls it all back, but the id it drew stays used. */
    method CreateProduct(password: Option<string>, product: Option<ProductInput>, sizes: Option<seq<SizeInput>>)
      returns (status: Status, id: Option<int>)
      requires Valid()
      modifies this`products, this`stock, this`log, this`nextId
      ensures Valid()
      ensures !PasswordAccepted(adminPassword, password) ==> status == Unauthorized
      ensures PasswordAccepted(adminPassword, password) && CreateRejected(product, sizes, old(products)) ==> status == BadRequest
      ensures (PasswordAccepted(adminPassword, password) && !CreateRejected(product, sizes, old(products)))
                ==> status == (if DistinctLabels(CleanSizes(sizes.value)) then Ok else ServerError)
      ensures status == Ok ==>
                && id == Some(old(nextId))
                && products == old(products)[old(nextId) := CleanProduct(product.value)]
                && stock == Upserted(old(stock), SizeUpserts(old(nextId), CleanSizes(sizes.value)))
                && log == old(log) + [Broadcast(ProductsUpdated, CurrentList())]
      ensures status != Ok ==> id == None && products == old(products) && stock == old(stock) && log == old(log)
      ensures nextId == old(nextId) + (if status in {Ok, ServerError} then 1 else 0)
      ensures UniqueTitles(old(products)) ==> UniqueTitles(products)
    {
      if !PasswordAccepted(adminPassword, password) {
        return Unauthorized, None;
      }
      if CreateRejected(product, sizes, products) {
        return BadRequest, None;
      }
      status, id := InsertProduct(CleanProduct(product.value), CleanSizes(sizes.value));
    }

    /** The create route's transaction: the product and its sizes are
        inserted together, or, when a label repeats, nothing is kept but the
        id it drew. */
    method InsertProduct(p: Product, cs: seq<NewSize>) returns (status: Status, id: Option<int>)
      requires Valid() && ProductClean(p) && !TitleTaken(products, p.title)
      requires cs != [] && forall c :: c in cs ==> c.size != "" && IsTrimmed(c.size)
      modifies this`products, this`stock, this`log, this`nextId
      ensures Valid()
      ensures status == (if DistinctLabels(cs) then Ok else ServerError)
      ensures status == Ok ==>
                && id == Some(old(nextId))
                && products == old(products)[old(nextId) := p]
                && stock == Upserted(old(stock), SizeUpserts(old(nextId), cs))
                && log == old(log) + [Broadcast(ProductsUpdated, CurrentList())]
      ensures status != Ok ==> id == None && products == old(products) && stock == old(stock) && log == old(log)
      ensures nextId == old(nextId) + 1
      ensures UniqueTitles(old(products)) ==> UniqueTitles(products)
    {
      var newId := nextId;
      nextId := nextId + 1;
      var accepted, work := StageSizes(stock, newId, cs);
      if !accepted {
        return ServerError, None;
      }
      CreateKeepsConsistent(products, stock, newId, p, cs);
      if UniqueTitles(products) {
        CreateKeepsTitlesUnique(products, newId, p);
      }
      Commit(products[newId := p], work, ProductsUpdated);
      status, id := Ok, Some(newId);
    }

    /** `DELETE /api/admin/products/:id`; ON DELETE CASCADE removes the
        product's sizes with it. An id that is `NaN` matches no row. */
    method DeleteProduct(password: Option<string>, id: Option<int>) returns (status: Status)
      requires Valid()
      modifies this`products, this`stock, this`log
      ensures Valid()
      ensures status == Unauthorized <==> !PasswordAccepted(adminPassword, password)
      ensures status == NotFound <==> (PasswordAccepted(adminPassword, password) && (id.None? || id.value !in old(products)))
      ensures status == Ok <==> (PasswordAccepted(adminPassword, password) && id.Some? && id.value in old(products))
      ensures status == Ok ==>
                && products == old(products) - {id.value}
                && (forall r :: r in stock <==> r in old(stock) && r.productId != id.value)
                && (forall r :: r in stock ==> stock[r] == old(stock)[r])
                && log == old(log) + [Broadcast(ProductsUpdated, CurrentList())]
      ensures status != Ok ==> products == old(products) && stock == old(stock) && log == old(log)
    {
      if !PasswordAccepted(adminPassword, password) {
        return Unauthorized;
      }
      if id.None? || id.value !in products {
        return NotFound;
      }
      DeleteKeepsConsistent(products, stock, nextId, id.value);
      Commit(products - {id.value}, Cascade(stock, id.value), ProductsUpdated);
      status := Ok;
    }

    /** `POST /api/admin/products/:id/sizes`. */
    method AddSize(password: Option<string>, id: Option<int>, size: Option<string>, stockIn: Option<int>)
      returns (status: Status)
      requires Valid()
      modifies this`products, this`stock, this`log
      ensures Valid()
      ensures products == old(products)
      ensures status == Unauthorized <==> !PasswordAccepted(adminPassword, password)
      ensures PasswordAccepted(adminPassword, password) && AddSizeMalformed(id, size, stockIn) ==> status == BadRequest
      ensures (PasswordAccepted(adminPassword, password) && !AddSizeMalformed(id, size, stockIn) && id.value !in products)
                ==> status == NotFound
      ensures (PasswordAccepted(adminPassword, password) && !AddSizeMalformed(id, size, stockIn) && id.value in products
                && Row(id.value, Trim(size.value)) in old(stock)) ==> status == BadRequest
      ensures status == Ok <==> (PasswordAccepted(adminPassword, password) && !AddSizeMalformed(id, size, stockIn)
                && id.value in products && Row(id.value, Trim(size.value)) !in old(stock))
      ensures status == Ok ==>
                && stock == old(stock)[Row(id.value, Trim(size.value)) := stockIn.GetOr(0)]
                && log == old(log) + [Broadcast(ProductsUpdated, CurrentList())]
      ensures status != Ok ==> stock == old(stock) && log == old(log)
    {
      if !PasswordAccepted(adminPassword, password) {
        return Unauthorized;
      }
      if id.None? || id.value <= 0 {
        return BadRequest;
      }
      if size.None? || Trim(size.value) == "" {
        return BadRequest;
      }
      var value := stockIn.GetOr(0);
      if value < 0 {
        return BadRequest;
      }
      if id.value !in products {
        return NotFound;
      }
      var row := Row(id.value, Trim(size.value));
      if row in stock {
        return BadRequest;
      }
      GrowStockKeepsConsistent(products, stock, stock[row := value], nextId);
      Commit(products, stock[row := value], ProductsUpdated);
      status := Ok;
    }

    /** `DELETE /api/admin/products/:productId/sizes/:size`. The size is
        looked up exactly as the URL gives it; only the blank check trims
        it. A product's last size cannot be removed. */
    method RemoveSize(password: Option<string>, id: Option<int>, size: string) returns (status: Status)
      requires Valid()
      modifies this`products, this`stock, this`log
      ensures Valid()
      ensures products == old(products)
      ensures status == Unauthorized <==> !PasswordAccepted(adminPassword, password)
      ensures PasswordAccepted(adminPassword, password) && RemoveSizeMalformed(id, size) ==> status == BadRequest
      ensures (PasswordAccepted(adminPassword, password) && !RemoveSizeMalformed(id, size) && Row(id.value, size) !in old(stock))
                ==> status == NotFound
      ensures (PasswordAccepted(adminPassword, password) && !RemoveSizeMalformed(id, size) && Row(id.value, size) in old(stock)
                && |LabelsOf(old(stock), id.value)| <= 1) ==> status == BadRequest
      ensures status == Ok <==> (PasswordAccepted(adminPassword, password) && !RemoveSizeMalformed(id, size)
                && Row(id.value, size) in old(stock) && |LabelsOf(old(stock), id.value)| > 1)
      ensures status == Ok ==>
                && stock == old(stock) - {Row(id.value, size)}
                && LabelsOf(stock, id.value) == LabelsOf(old(stock), id.value) - {size} != {}
                && log == old(log) + [Broadcast(ProductsUpdated, CurrentList())]
      ensures status != Ok ==> stock == old(stock) && log == old(log)
    {
      if !PasswordAccepted(adminPassword, password) {
        return Unauthorized;
      }
      if id.None? || id.value <= 0 || Trim(size) == "" {
        return BadRequest;
      }
      var row := Row(id.value, size);
      if row !in stock {
        return NotFound;
      }
      if |LabelsOf(stock, id.value)| <= 1 {
        return BadRequest;
      }
      RemoveKeepsConsistent(products, stock, nextId, row);
      Commit(products, stock - {row}, ProductsUpdated);
      status := Ok;
    }
  }
}

=== FILE: legacy_inventory.dfy ===
/** backend/server.js, the older revision of the server: the same two
    tables, read in id order, and two admin routes that check nothing but
    the password and run their statements one by one, without a
    transaction, so a failure keeps whatever was written before it. */
module LegacyInventory {
  import opened Wrappers
  import opened Catalog
  import Inventory

  /** The statuses this revision answers with. */
  datatype Status = Ok | Unauthorized | ServerError

  /** The password the routes fall back to when `ADMIN_PASSWORD` is unset or
      empty. */
  const FallbackPassword: string := "Daniela1809"

  /** `process.env.ADMIN_PASSWORD || 'Daniela1809'`. */
  function ExpectedPassword(env: Option<string>): string {
    if env.Some? && env.value != "" then env.value else FallbackPassword
  }

  /** `password !== (process.env.ADMIN_PASSWORD || 'Daniela1809')`: a
      request is let through exactly when it carries the expected password. */
  predicate LegacyAccepts(env: Option<string>, password: Option<string>) {
    password == Some(ExpectedPassword(env))
  }

  /** The two revisions let the same requests through exactly when the
      variable is set to a non-empty value. */
  lemma PasswordsAgreeIff(env: Option<string>)
    ensures (forall pw :: LegacyAccepts(env, pw) <==> Inventory.PasswordAccepted(env, pw))
            <==> (env.Some? && env.value != "")
  {
    if !(env.Some? && env.value != "") {
      PasswordsDisagree(env);
    }
  }

  /** With the variable unset or empty, the fallback literal opens only the
      older revision. */
  lemma PasswordsDisagree(env: Option<string>)
    requires env == None || env == Some("")
    ensures LegacyAccepts(env, Some(FallbackPassword))
    ensures !Inventory.PasswordAccepted(env, Some(FallbackPassword))
  {
    assert FallbackPassword != "";
  }

  /** With the variable unset, a request without a password opens only
      server.js. */
  lemma MissingPasswordOpensCurrent()
    ensures Inventory.PasswordAccepted(None, None)
    ensures !LegacyAccepts(None, None)
  {
  }

  /** One element of `updates`, with `None` for a field that is `undefined`
      (a bind parameter the driver refuses). */
  datatype LegacyEntry = LegacyEntry(productId: Option<int>, size: Option<string>, stock: Option<int>)

  predicate EntryDefined(e: LegacyEntry) {
    e.productId.Some? && e.size.Some? && e.stock.Some?
  }

  /** How many entries run before the first one the driver refuses. */
  function DefinedPrefix(es: seq<LegacyEntry>): (n: nat)
    ensures n <= |es|
    ensures forall k :: 0 <= k < n ==> EntryDefined(es[k])
    ensures n < |es| ==> !EntryDefined(es[n])
  {
    if es == [] || !EntryDefined(es[0]) then 0 else 1 + DefinedPrefix(es[1..])
  }

  function AsUpsert(e: LegacyEntry): Inventory.Upsert
    requires EntryDefined(e)
  {
    Inventory.Upsert(Row(e.productId.value, e.size.value), e.stock.value)
  }

  function AsUpserts(es: seq<LegacyEntry>): (r: seq<Inventory.Upsert>)
    requires forall k :: 0 <= k < |es| ==> EntryDefined(es[k])
    ensures |r| == |es| && forall k :: 0 <= k < |es| ==> r[k] == AsUpsert(es[k])
  {
    seq(|es|, k requires 0 <= k < |es| => AsUpsert(es[k]))
  }

  /** `UPDATE product_sizes SET stock = ? WHERE product_id = ? AND size = ?`
      for each write in turn: a write to a row that does not exist matches
      nothing. */
  function UpdateOnly(stock: Stock, us: seq<Inventory.Upsert>): Stock
    decreases |us|
  {
    if us == [] then stock
    else UpdateOnly(if us[0].row in stock then stock[us[0].row := us[0].stock] else stock, us[1..])
  }

  /** The update-only batch never adds or removes a row. */
  lemma {:induction false} UpdateOnlyKeepsRows(stock: Stock, us: seq<Inventory.Upsert>)
    ensures UpdateOnly(stock, us).Keys == stock.Keys
    decreases |us|
  {
    if us != [] {
      UpdateOnlyKeepsRows(if us[0].row in stock then stock[us[0].row := us[0].stock] else stock, us[1..]);
    }
  }

  /** When every row written already exists, the two revisions' batches
      leave the same table. */
  lemma {:induction false} UpdateOnlyMatchesUpsert(stock: Stock, us: seq<Inventory.Upsert>)
    requires forall k :: 0 <= k < |us| ==> us[k].row in stock
    ensures UpdateOnly(stock, us) == Inventory.Upserted(stock, us)
    decreases |us|
  {
    if us != [] {
      var s1 := stock[us[0].row := us[0].stock];
      assert forall k :: 0 <= k < |us[1..]| ==> us[1..][k].row in s1 by {
        assert forall k :: 0 <= k < |us[1..]| ==> us[1..][k] == us[k + 1];
      }
      UpdateOnlyMatchesUpsert(s1, us[1..]);
    }
  }

  lemma {:induction false} UpdateOnlySnoc(stock: Stock, us: seq<Inventory.Upsert>, u: Inventory.Upsert)
    ensures UpdateOnly(stock, us + [u])
         == (var s := UpdateOnly(stock, us); if u.row in s then s[u.row := u.stock] else s)
    decreases |us|
  {
    if us != [] {
      assert (us + [u])[1..] == us[1..] + [u];
      UpdateOnlySnoc(if us[0].row in stock then stock[us[0].row := us[0].stock] else stock, us[1..], u);
    }
  }

  /** The update statements of the stock route, one per entry, up to the
      first entry the driver refuses. */
  method ApplyUpdates(stock: Stock, es: seq<LegacyEntry>) returns (done: nat, work: Stock)
    ensures done == DefinedPrefix(es)
    ensures work == UpdateOnly(stock, AsUpserts(es[..done]))
  {
    work := stock;
    ghost var us: seq<Inventory.Upsert> := [];
    done := 0;
    while done < |es| && EntryDefined(es[done])
      invariant done <= DefinedPrefix(es) && |us| == done
      invariant forall k :: 0 <= k < done ==> us[k] == AsUpsert(es[k])
      invariant work == UpdateOnly(stock, us)
    {
      var e := es[done];
      var row := Row(e.productId.value, e.size.value);
      UpdateOnlySnoc(stock, us, Inventory.Upsert(row, e.stock.value));
      if row in work {
        work := work[row := e.stock.value];
      }
      us := us + [Inventory.Upsert(row, e.stock.value)];
      done := done + 1;
    }
    assert us == AsUpserts(es[..done]);
  }

  /** One element of `sizes` in the create route; `None` for `undefined`. */
  datatype LegacySize = LegacySize(size: Option<string>, stock: Option<int>)

  predicate SizeDefined(s: LegacySize) {
    s.size.Some? && s.stock.Some?
  }

  /** How many size inserts succeed when the labels in `seen` are already
      taken: the run stops at an `undefined` field or at a label the unique
      key on product and size refuses. */
  function InsertablePrefix(sizes: seq<LegacySize>, seen: set<string>): (n: nat)
    ensures n <= |sizes|
  {
    if sizes == [] || !SizeDefined(sizes[0]) || sizes[0].size.value in seen then 0
    else 1 + InsertablePrefix(sizes[1..], seen + {sizes[0].size.value})
  }

  /** The sizes inserted are defined and have distinct labels none of which
      was taken, and the run stops only at an undefined field or a label
      already taken or already inserted. */
  lemma {:induction false} InsertablePrefixMeaning(sizes: seq<LegacySize>, seen: set<string>)
    ensures forall k :: 0 <= k < InsertablePrefix(sizes, seen) ==>
              SizeDefined(sizes[k]) && sizes[k].size.value !in seen
    ensures forall i, j :: 0 <= i < j < InsertablePrefix(sizes, seen) ==> sizes[i].size != sizes[j].size
    ensures InsertablePrefix(sizes, seen) < |sizes| ==>
              var n := InsertablePrefix(sizes, seen);
              !SizeDefined(sizes[n]) || sizes[n].size.value in seen
              || exists k :: 0 <= k < n && sizes[k].size == sizes[n].size
    decreases |sizes|
  {
    if sizes != [] && SizeDefined(sizes[0]) && sizes[0].size.value !in seen {
      var l := sizes[0].size.value;
      var rest := sizes[1..];
      InsertablePrefixMeaning(rest, seen + {l});
      var n := InsertablePrefix(sizes, seen);
      assert forall k :: 0 <= k < n - 1 ==> rest[k] == sizes[k + 1];
      if n < |sizes| {
        assert sizes[n] == rest[n - 1];
        if SizeDefined(sizes[n]) && sizes[n].size.value !in seen && sizes[n].size.value == l {
          assert sizes[0].size == sizes[n].size;
        } else if SizeDefined(sizes[n]) && sizes[n].size.value !in seen {
          var k :| 0 <= k < n - 1 && rest[k].size == rest[n - 1].size;
          assert sizes[k + 1].size == sizes[n].size;
        }
      }
    }
  }

  function SizeUpsert(id: int, s: LegacySize): Inventory.Upsert
    requires SizeDefined(s)
  {
    Inventory.Upsert(Row(id, s.size.value), s.stock.value)
  }

  function SizeUpserts(id: int, sizes: seq<LegacySize>): (r: seq<Inventory.Upsert>)
    requires forall k :: 0 <= k < |sizes| ==> SizeDefined(sizes[k])
    ensures |r| == |sizes| && forall k :: 0 <= k < |sizes| ==> r[k] == SizeUpsert(id, sizes[k])
  {
    seq(|sizes|, k requires 0 <= k < |sizes| => SizeUpsert(id, sizes[k]))
  }

  lemma InsertablePrefixStep(sizes: seq<LegacySize>, i: nat, seen: set<string>)
    requires i < |sizes| && SizeDefined(sizes[i]) && sizes[i].size.value !in seen
    ensures InsertablePrefix(sizes[i..], seen) == 1 + InsertablePrefix(sizes[i + 1..], seen + {sizes[i].size.value})
  {
    assert sizes[i..][1..] == sizes[i + 1..];
  }

  /** The size inserts of the create route for a product `id` that has no
      rows yet, up to the first one that fails. */
  method InsertSizes(stock: Stock, id: int, sizes: seq<LegacySize>) returns (done: nat, work: Stock)
    requires forall r :: r in stock ==> r.productId != id
    ensures done == InsertablePrefix(sizes, {})
    ensures forall k :: 0 <= k < done ==> SizeDefined(sizes[k])
    ensures work == Inventory.Upserted(stock, SizeUpserts(id, sizes[..done]))
    ensures forall r :: r in work ==> r in stock || r.productId == id
  {
    work := stock;
    ghost var us: seq<Inventory.Upsert> := [];
    ghost var seen: set<string> := {};
    done := 0;
    InsertablePrefixMeaning(sizes, {});
    while done < |sizes| && SizeDefined(sizes[done]) && Row(id, sizes[done].size.value) !in work
      invariant done <= |sizes| && |us| == done
      invariant InsertablePrefix(sizes, {}) == done + InsertablePrefix(sizes[done..], seen)
      invariant forall k :: 0 <= k < done ==> SizeDefined(sizes[k]) && us[k] == SizeUpsert(id, sizes[k])
      invariant work == Inventory.Upserted(stock, us)
      invariant forall l :: Row(id, l) in work <==> l in seen
      invariant forall r :: r in work ==> r in stock || r.productId == id
      decreases |sizes| - done
    {
      var s := sizes[done];
      var row := Row(id, s.size.value);
      InsertablePrefixStep(sizes, done, seen);
      Inventory.UpsertedSnoc(stock, us, Inventory.Upsert(row, s.stock.value));
      work := work[row := s.stock.value];
      us := us + [Inventory.Upsert(row, s.stock.value)];
      seen := seen + {s.size.value};
      done := done + 1;
    }
    if done < |sizes| {
      assert sizes[done..][0] == sizes[done];
      assert InsertablePrefix(sizes[done..], seen) == 0;
    }
    assert us == SizeUpserts(id, sizes[..done]);
  }

  /** The foreign key and the AUTO_INCREMENT counter; nothing else is kept
      in this revision. */
  ghost predicate LegacyConsistent(products: map<int, Product>, stock: Stock, nextId: int) {
    nextId >= 1 && IdsBelow(products, nextId) && forall r :: r in stock ==> r.productId in products
  }

  /** The database of backend/server.js together with its broadcasts. */
  class LegacyService {
    /** `process.env.ADMIN_PASSWORD`, `None` when unset. */
    const envPassword: Option<string>
    var products: map<int, Product>
    var stock: Stock
    var nextId: int
    var log: seq<Broadcast>

    ghost predicate Valid()
      reads this`products, this`stock, this`nextId
    {
      LegacyConsistent(products, stock, nextId)
    }

    /** `getProductsWithSizes` of this revision: `ORDER BY id`. */
    function CurrentList(): (r: seq<Listing>)
      reads this`products, this`stock, this`nextId
      requires Valid()
      ensures Reflects(r, products, stock)
      ensures forall i, j :: 0 <= i < j < |r| ==> r[i].id < r[j].id
    {
      ByIdAscending(products, stock, nextId)
    }

    constructor (envPassword: Option<string>)
      ensures Valid() && this.envPassword == envPassword
      ensures products == map[] && stock == map[] && nextId == 1 && log == []
    {
      this.envPassword := envPassword;
      products, stock, nextId, log := map[], map[], 1, [];
    }

    method Emit(event: Event)
      requires Valid()
      modifies this`log
      ensures log == old(log) + [Broadcast(event, CurrentList())]
    {
      log := log + [Broadcast(event, CurrentList())];
    }

    /** `PUT /api/admin/stock` of this revision: no validation and no
        transaction; entries before the first refused one stay written. */
    method UpdateStock(password: Option<string>, updates: Option<seq<LegacyEntry>>) returns (status: Status)
      requires Valid()
      modifies this`stock, this`log
      ensures Valid()
      ensures status == Unauthorized <==> !LegacyAccepts(envPassword, password)
      ensures status == Ok <==>
                (LegacyAccepts(envPassword, password) && updates.Some?
                 && DefinedPrefix(updates.value) == |updates.value|)
      ensures (LegacyAccepts(envPassword, password) && updates.Some?) ==>
                stock == UpdateOnly(old(stock), AsUpserts(updates.value[..DefinedPrefix(updates.value)]))
      ensures (!LegacyAccepts(envPassword, password) || updates.None?) ==> stock == old(stock)
      ensures stock.Keys == old(stock).Keys
      ensures status == Ok ==> log == old(log) + [Broadcast(StockUpdated, CurrentList())]
      ensures status != Ok ==> log == old(log)
    {
      if !LegacyAccepts(envPassword, password) {
        return Unauthorized;
      }
      if updates.None? {
        return ServerError;
      }
      var es := updates.value;
      var done, work := ApplyUpdates(stock, es);
      UpdateOnlyKeepsRows(stock, AsUpserts(es[..done]));
      stock := work;
      if done < |es| {
        return ServerError;
      }
      Emit(StockUpdated);
      status := Ok;
    }

    /** `POST /api/admin/products` of this revision: the product is inserted
        as given, then its sizes one by one; a failure among the sizes
        leaves the product and the sizes before it in place. */
    method CreateProduct(password: Option<string>, title: Option<string>, brand: Option<string>,
                         price: Option<int>, imageUrl: Option<string>, sizes: Option<seq<LegacySize>>)
      returns (status: Status, id: Option<int>)
      requires Valid()
      modifies this`products, this`stock, this`nextId, this`log
      ensures Valid()
      ensures status == Unauthorized <==> !LegacyAccepts(envPassword, password)
      ensures (status == Unauthorized || title.None? || brand.None? || price.None? || imageUrl.None?) ==>
                products == old(products) && stock == old(stock) && nextId == old(nextId) && log == old(log)
      ensures (LegacyAccepts(envPassword, password)
               && title.Some? && brand.Some? && price.Some? && imageUrl.Some?) ==>
                && products == old(products)[old(nextId) := Product(title.value, brand.value, price.value, imageUrl.value)]
                && nextId == old(nextId) + 1
                && (sizes.None? ==> status == ServerError && stock == old(stock))
                && (sizes.Some? ==>
                      var n := InsertablePrefix(sizes.value, {});
                      && (forall k :: 0 <= k < n ==> SizeDefined(sizes.value[k]))
                      && stock == Inventory.Upserted(old(stock), SizeUpserts(old(nextId), sizes.value[..n]))
                      && (status == Ok <==> n == |sizes.value|))
      ensures status == Ok ==> id == Some(old(nextId)) && log == old(log) + [Broadcast(ProductsUpdated, CurrentList())]
      ensures status != Ok ==> id == None && log == old(log)
    {
      id := None;
      if !LegacyAccepts(envPassword, password) {
        return Unauthorized, None;
      }
      if title.None? || brand.None? || price.None? || imageUrl.None? {
        return ServerError, None;
      }
      var newId := nextId;
      products := products[newId := Product(title.value, brand.value, price.value, imageUrl.value)];
      nextId := nextId + 1;
      if sizes.None? {
        return ServerError, None;
      }
      var done, work := InsertSizes(stock, newId, sizes.value);
      stock := work;
      if done < |sizes.value| {
        return ServerError, None;
      }
      Emit(ProductsUpdated);
      status, id := Ok, Some(newId);
    }
  }
}

=== FILE: storefront.dfy ===
/** The pure parts of the storefront page (backend/public/app.js): the
    catalogue filter, the brand menu, the buy button, the checks on data that
    arrives from the server, and the admin forms that build requests for the
    stock and create routes. */
module Storefront {
  import opened Wrappers
  import opened Text
  import opened Catalog
  import Inventory

  // ---------------------------------------------------------------------
  // Search and brand filter

  predicate SizeMentions(sizes: seq<SizeStock>, query: string) {
    exists k :: 0 <= k < |sizes| && Contains(sizes[k].size, query)
  }

  /** The query (already lower-cased and trimmed by the search box) is empty,
      or occurs in the lower-cased title or brand, or in some size label. */
  predicate MatchesQuery(p: Listing, query: string) {
    query == "" || Contains(Lower(p.title), query) || Contains(Lower(p.brand), query)
    || SizeMentions(p.sizes, query)
  }

  predicate MatchesBrand(p: Listing, brand: string) {
    brand == "" || p.brand == brand
  }

  predicate Matches(p: Listing, query: string, brand: string) {
    MatchesQuery(p, query) && MatchesBrand(p, brand)
  }

  /** `filterProducts`: the listings that match both the query and the
      brand, in catalogue order. */
  function Filter(ps: seq<Listing>, query: string, brand: string): (r: seq<Listing>)
    ensures |r| <= |ps|
    ensures forall p :: p in r <==> p in ps && Matches(p, query, brand)
  {
    if ps == [] then []
    else (if Matches(ps[0], query, brand) then [ps[0]] else []) + Filter(ps[1..], query, brand)
  }

  /** With an empty query and no brand the whole catalogue is shown. */
  lemma {:induction false} FilterNothing(ps: seq<Listing>)
    ensures Filter(ps, "", "") == ps
  {
    if ps != [] {
      FilterNothing(ps[1..]);
    }
  }

  /** Filtering by query and brand at once is filtering by the query and
      then by the brand. */
  lemma {:induction false} FilterComposes(ps: seq<Listing>, query: string, brand: string)
    ensures Filter(ps, query, brand) == Filter(Filter(ps, query, ""), "", brand)
  {
    if ps != [] {
      FilterComposes(ps[1..], query, brand);
      if MatchesQuery(ps[0], query) {
        assert Filter(ps, query, "") == [ps[0]] + Filter(ps[1..], query, "");
        assert ([ps[0]] + Filter(ps[1..], query, ""))[1..] == Filter(ps[1..], query, "");
      } else {
        assert Filter(ps, query, "") == Filter(ps[1..], query, "");
      }
    }
  }

  predicate IdsDescending(ps: seq<Listing>) {
    forall i, j :: 0 <= i < j < |ps| ==> ps[i].id > ps[j].id
  }

  lemma TailBelowHead(ps: seq<Listing>)
    requires ps != [] && IdsDescending(ps)
    ensures IdsDescending(ps[1..])
    ensures forall q :: q in ps[1..] ==> q.id < ps[0].id
  {
    assert forall k :: 0 <= k < |ps[1..]| ==> ps[1..][k] == ps[k + 1];
  }

  lemma PrependKeepsDescending(p: Listing, rest: seq<Listing>)
    requires IdsDescending(rest) && forall q :: q in rest ==> q.id < p.id
    ensures IdsDescending([p] + rest)
  {
    var r := [p] + rest;
    forall i, j | 0 <= i < j < |r| ensures r[i].id > r[j].id {
      assert r[j] == rest[j - 1];
      if i > 0 {
        assert r[i] == rest[i - 1];
      }
    }
  }

  /** The filtered grid keeps the server's newest-first order. */
  lemma {:induction false} FilterKeepsOrder(ps: seq<Listing>, query: string, brand: string)
    requires IdsDescending(ps)
    ensures IdsDescending(Filter(ps, query, brand))
  {
    if ps != [] {
      TailBelowHead(ps);
      var rest := Filter(ps[1..], query, brand);
      FilterKeepsOrder(ps[1..], query, brand);
      PrependKeepsDescending(ps[0], rest);
    }
  }

  /** The positions of `ps`, from `from` on, whose listings match, in
      increasing order. */
  function KeptFrom(ps: seq<Listing>, query: string, brand: string, from: nat): seq<nat>
    requires from <= |ps|
    decreases |ps| - from
  {
    if from == |ps| then []
    else (if Matches(ps[from], query, brand) then [from] else []) + KeptFrom(ps, query, brand, from + 1)
  }

  /** `idx` picks `r` out of `ps` in order: strictly increasing positions,
      each at least `from`, holding the listings of `r`. */
  ghost predicate PicksInOrder(idx: seq<nat>, r: seq<Listing>, ps: seq<Listing>, from: nat) {
    && |idx| == |r|
    && (forall k :: 0 <= k < |idx| ==> from <= idx[k] < |ps| && r[k] == ps[idx[k]])
    && (forall i, j :: 0 <= i < j < |idx| ==> idx[i] < idx[j])
  }

  lemma PrependPick(idx: seq<nat>, r: seq<Listing>, ps: seq<Listing>, from: nat)
    requires from < |ps| && PicksInOrder(idx, r, ps, from + 1)
    ensures PicksInOrder([from] + idx, [ps[from]] + r, ps, from)
  {
    var idx', r' := [from] + idx, [ps[from]] + r;
    forall k | 0 < k < |idx'| ensures from <= idx'[k] < |ps| && r'[k] == ps[idx'[k]] {
      assert idx'[k] == idx[k - 1] && r'[k] == r[k - 1];
    }
    forall i, j | 0 <= i < j < |idx'| ensures idx'[i] < idx'[j] {
      assert idx'[j] == idx[j - 1];
      if i > 0 {
        assert idx'[i] == idx[i - 1];
      }
    }
  }

  lemma {:induction false} KeptFromPicks(ps: seq<Listing>, query: string, brand: string, from: nat)
    requires from <= |ps|
    ensures PicksInOrder(KeptFrom(ps, query, brand, from), Filter(ps[from..], query, brand), ps, from)
    ensures forall n :: from <= n < |ps| ==> (n in KeptFrom(ps, query, brand, from) <==> Matches(ps[n], query, brand))
    decreases |ps| - from
  {
    if from < |ps| {
      KeptFromPicks(ps, query, brand, from + 1);
      assert ps[from..][1..] == ps[from + 1..];
      var rest := KeptFrom(ps, query, brand, from + 1);
      if Matches(ps[from], query, brand) {
        PrependPick(rest, Filter(ps[from + 1..], query, brand), ps, from);
      }
    }
  }

  /** The filtered grid is the catalogue's matching listings in catalogue
      order, whatever that order is: the positions it keeps increase, hold
      its listings, and are exactly the positions whose listing matches. */
  lemma FilterKeepsPositions(ps: seq<Listing>, query: string, brand: string)
    ensures var idx := KeptFrom(ps, query, brand, 0);
            && PicksInOrder(idx, Filter(ps, query, brand), ps, 0)
            && forall n :: 0 <= n < |ps| ==> (n in idx <==> Matches(ps[n], query, brand))
  {
    KeptFromPicks(ps, query, brand, 0);
    assert ps[0..] == ps;
  }

  /** `populateBrandFilter`: the distinct non-empty brands, sorted. */
  function BrandOptions(ps: seq<Listing>): (r: seq<string>)
    ensures StrictlySorted(r)
    ensures forall b :: b in r <==> b != "" && exists k :: 0 <= k < |ps| && ps[k].brand == b
  {
    var brands := (set p | p in ps :: p.brand) - {""};
    var r := SortStrings(brands);
    assert forall b :: b in brands <==> b != "" && exists k :: 0 <= k < |ps| && ps[k].brand == b by {
      forall b | b != "" && exists k :: 0 <= k < |ps| && ps[k].brand == b ensures b in brands {
        var k :| 0 <= k < |ps| && ps[k].brand == b;
        assert ps[k] in ps;
      }
    }
    r
  }

  /** The brand the menu shows after it is rebuilt: the previous choice if it
      is still offered, otherwise "all brands". */
  function RestoredBrand(current: string, options: seq<string>): (r: string)
    ensures r == "" || r in options
    ensures current in options ==> r == current
    ensures current !in options ==> r == ""
  {
    if current != "" && current in options then current else ""
  }

  // ---------------------------------------------------------------------
  // Buying a size

  /** `sizes.find(s => s.size === wanted)`: the first size with that label. */
  function FindSize(sizes: seq<SizeStock>, wanted: string): (r: Option<SizeStock>)
    ensures r.None? <==> forall k :: 0 <= k < |sizes| ==> sizes[k].size != wanted
    ensures r.Some? ==> exists k :: 0 <= k < |sizes| && sizes[k] == r.value && r.value.size == wanted
                                    && forall j :: 0 <= j < k ==> sizes[j].size != wanted
  {
    if sizes == [] then None
    else if sizes[0].size == wanted then Some(sizes[0])
    else
      var r := FindSize(sizes[1..], wanted);
      if r.Some? then
        var k :| 0 <= k < |sizes[1..]| && sizes[1..][k] == r.value && r.value.size == wanted
                 && forall j :: 0 <= j < k ==> sizes[1..][j].size != wanted;
        assert sizes[k + 1] == r.value;
        r
      else r
  }

  /** A JavaScript string used as a condition: present and not empty. */
  predicate Truthy(s: Option<string>) {
    s.Some? && s.value != ""
  }

  /** The buy button is enabled: a product is open, a size is selected and
      that size has stock above zero. */
  predicate CanBuy(current: Option<Listing>, selected: Option<string>) {
    && current.Some? && Truthy(selected)
    && var f := FindSize(current.value.sizes, selected.value);
       f.Some? && f.value.stock > 0
  }

  datatype BuyOutcome = AskForSize | SizeUnavailable | OpenChat

  /** What `handleBuyClick` does. */
  function BuyDecision(current: Option<Listing>, selected: Option<string>): BuyOutcome {
    if current.None? || !Truthy(selected) then AskForSize
    else
      var f := FindSize(current.value.sizes, selected.value);
      if f.None? || f.value.stock == 0 then SizeUnavailable else OpenChat
  }

  /** An enabled button always opens the chat; when no stock is negative the
      click opens the chat exactly when the button is enabled. */
  lemma BuyFollowsButton(current: Option<Listing>, selected: Option<string>)
    ensures CanBuy(current, selected) ==> BuyDecision(current, selected) == OpenChat
    ensures (current.Some? && forall k :: 0 <= k < |current.value.sizes| ==> current.value.sizes[k].stock >= 0)
            ==> (CanBuy(current, selected) <==> BuyDecision(current, selected) == OpenChat)
  {
    if current.Some? && Truthy(selected) {
      var f := FindSize(current.value.sizes, selected.value);
      if f.Some? {
        var k :| 0 <= k < |current.value.sizes| && current.value.sizes[k] == f.value;
      }
    }
  }

  /** A size with negative stock: the button stays disabled, yet the click
      handler would open the chat. */
  lemma NegativeStockOpensChat()
    ensures var p := Listing(1, "Bota", "Marca", 100, "/b.jpeg", [SizeStock("40", -1)]);
            !CanBuy(Some(p), Some("40")) && BuyDecision(Some(p), Some("40")) == OpenChat
  {
    var p := Listing(1, "Bota", "Marca", 100, "/b.jpeg", [SizeStock("40", -1)]);
    assert FindSize(p.sizes, "40") == Some(SizeStock("40", -1));
  }

  // ---------------------------------------------------------------------
  // Products that arrive from the server

  /** A JSON value as the page receives it. */
  datatype Json = JNull | JBool(b: bool) | JNum(n: int) | JStr(s: string) | JArr(items: seq<Json>)
                | JObj(fields: map<string, Json>)

  /** `parseFloat(v)` for the values a price can hold; `None` is `NaN`. */
  function PriceNumber(v: Json): Option<int> {
    match v
    case JNum(n) => Some(n)
    case JStr(s) => ParseInt(s)
    case _ => None
  }

  predicate SizeRecordValid(v: Json) {
    && v.JObj? && "size" in v.fields && "stock" in v.fields
    && v.fields["stock"].JNum? && v.fields["stock"].n >= 0
  }

  predicate HasRequiredFields(v: Json)
    requires v.JObj?
  {
    && "id" in v.fields && "title" in v.fields && "brand" in v.fields && "price" in v.fields
    && "image_url" in v.fields && "sizes" in v.fields
  }

  /** `validateProductData`: an object with all six fields, a price that
      parses to a number that is not negative, and a non-empty array of sizes
      each with a label and a stock that is a number that is not negative. */
  predicate ValidateProductData(v: Json) {
    && v.JObj? && HasRequiredFields(v)
    && PriceNumber(v.fields["price"]).Some? && PriceNumber(v.fields["price"]).value >= 0
    && v.fields["sizes"].JArr? && |v.fields["sizes"].items| > 0
    && forall k :: 0 <= k < |v.fields["sizes"].items| ==> SizeRecordValid(v.fields["sizes"].items[k])
  }

  function SizeJson(s: SizeStock): Json {
    JObj(map["size" := JStr(s.size), "stock" := JNum(s.stock)])
  }

  /** A listing as the server sends it: the price column arrives as text. */
  function ListingJson(l: Listing): Json {
    JObj(map["id" := JNum(l.id), "title" := JStr(l.title), "brand" := JStr(l.brand),
             "price" := JStr(IdText(l.price)), "image_url" := JStr(l.imageUrl),
             "sizes" := JArr(seq(|l.sizes|, k requires 0 <= k < |l.sizes| => SizeJson(l.sizes[k])))])
  }

  /** A listing passes the page's check exactly when its price is not
      negative, it has at least one size and no size has negative stock. */
  lemma ListingValidIff(l: Listing)
    ensures ValidateProductData(ListingJson(l)) <==>
            l.price >= 0 && |l.sizes| > 0 && forall k :: 0 <= k < |l.sizes| ==> l.sizes[k].stock >= 0
  {
    var v := ListingJson(l);
    ParseIdText(l.price);
    assert PriceNumber(v.fields["price"]) == Some(l.price);
    var items := v.fields["sizes"].items;
    assert |items| == |l.sizes|;
    forall k | 0 <= k < |l.sizes| ensures SizeRecordValid(items[k]) <==> l.sizes[k].stock >= 0 {
      assert items[k] == SizeJson(l.sizes[k]);
    }
  }

  // ---------------------------------------------------------------------
  // Sanitising text

  /** `s` holds no angle bracket. */
  predicate NoAngles(s: string) {
    forall i :: 0 <= i < |s| ==> s[i] != '<' && s[i] != '>'
  }

  function StripAngles(s: string): (r: string)
    ensures |r| <= |s|
    ensures NoAngles(r)
    ensures NoAngles(s) ==> r == s
  {
    if s == [] then []
    else (if s[0] == '<' || s[0] == '>' then [] else [s[0]]) + StripAngles(s[1..])
  }

  /** `.replace(/[<>]/g, '')` works piece by piece: stripping a
      concatenation strips each part. */
  lemma {:induction false} StripAnglesAppend(a: string, b: string)
    ensures StripAngles(a + b) == StripAngles(a) + StripAngles(b)
  {
    if a == [] {
      assert a + b == b;
    } else {
      var head := if a[0] == '<' || a[0] == '>' then "" else [a[0]];
      assert (a + b)[0] == a[0] && (a + b)[1..] == a[1..] + b;
      calc {
        StripAngles(a + b);
      == { StripAnglesCons(a + b); }
        head + StripAngles(a[1..] + b);
      == { StripAnglesAppend(a[1..], b); }
        head + (StripAngles(a[1..]) + StripAngles(b));
      ==
        (head + StripAngles(a[1..])) + StripAngles(b);
      == { StripAnglesCons(a); }
        StripAngles(a) + StripAngles(b);
      }
    }
  }

  lemma StripAnglesCons(s: string)
    requires s != []
    ensures StripAngles(s) == (if s[0] == '<' || s[0] == '>' then "" else [s[0]]) + StripAngles(s[1..])
  {
  }

  /** Read left to right, each character is kept exactly when it is not an
      angle bracket. */
  lemma StripAnglesSnoc(s: string, c: char)
    ensures StripAngles(s + [c]) == StripAngles(s) + (if c == '<' || c == '>' then "" else [c])
  {
    StripAnglesAppend(s, [c]);
  }

  /** `sanitizeInput`: anything but a string becomes ""; a string is trimmed,
      loses every `<` and `>` and is cut to its first 100 characters. */
  function Sanitize(input: Option<string>): (r: string)
    ensures |r| <= 100
    ensures forall i :: 0 <= i < |r| ==> r[i] != '<' && r[i] != '>'
    ensures input.None? ==> r == ""
    ensures input.Some? ==>
              var t := StripAngles(Trim(input.value));
              r <= t && |r| == (if |t| <= 100 then |t| else 100)
  {
    match input
    case None => ""
    case Some(s) =>
      var t := StripAngles(Trim(s));
      if |t| <= 100 then t else t[..100]
  }

  /** Text that is already trimmed, short and free of angle brackets comes
      back unchanged. */
  lemma SanitizeKeepsCleanText(s: string)
    requires IsTrimmed(s) && |s| <= 100 && forall i :: 0 <= i < |s| ==> s[i] != '<' && s[i] != '>'
    ensures Sanitize(Some(s)) == s
  {
    assert TrimStart(s) == s;
    assert TrimEnd(s) == s;
  }

  /** Sanitising twice is not sanitising once: removing a bracket can expose
      white space that the first trim did not see. */
  lemma SanitizeNotIdempotent()
    ensures Sanitize(Some(Sanitize(Some("< x")))) != Sanitize(Some("< x"))
  {
    SanitizeBracketFirst();
    SanitizeLeadingSpace();
  }

  lemma SanitizeBracketFirst()
    ensures Sanitize(Some("< x")) == " x"
  {
    assert TrimStart("< x") == "< x";
    assert TrimEnd("< x") == "< x";
    assert StripAngles("< x") == " x";
  }

  lemma SanitizeLeadingSpace()
    ensures Sanitize(Some(" x")) == "x"
  {
    assert TrimStart(" x") == "x";
    assert TrimEnd("x") == "x";
    assert StripAngles("x") == "x";
  }

  // ---------------------------------------------------------------------
  // The stock panel

  /** One number input of the stock panel: its `data-product-id`,
      `data-size`, current value, `data-original-value` and whether it is
      marked `data-changed`. */
  datatype StockInput = StockInput(productIdText: string, size: string, value: string, originalText: string,
                                   changed: bool)

  function InputsOf(l: Listing): (r: seq<StockInput>)
    ensures |r| == |l.sizes|
    ensures forall k :: 0 <= k < |r| ==>
              r[k] == StockInput(IdText(l.id), l.sizes[k].size, IdText(l.sizes[k].stock), IdText(l.sizes[k].stock), false)
  {
    seq(|l.sizes|, k requires 0 <= k < |l.sizes| =>
      StockInput(IdText(l.id), l.sizes[k].size, IdText(l.sizes[k].stock), IdText(l.sizes[k].stock), false))
  }

  /** The panel as rendered: one input per size, product after product. */
  function RenderStockInputs(ps: seq<Listing>): seq<StockInput> {
    if ps == [] then [] else InputsOf(ps[0]) + RenderStockInputs(ps[1..])
  }

  /** `parseInt(text) || 0`. */
  function NumberOf(text: string): int {
    ParseInt(text).GetOr(0)
  }

  /** `handleStockInputChange`: a value below 0 or above 999 is replaced by
      the bound and nothing else happens; otherwise the input is marked
      changed exactly when its number differs from the original one. */
  function InputEdited(i: StockInput): (r: StockInput)
    ensures 0 <= NumberOf(r.value) <= 999
    ensures r.productIdText == i.productIdText && r.size == i.size && r.originalText == i.originalText
    ensures 0 <= NumberOf(i.value) <= 999 ==>
              r.value == i.value && (r.changed <==> ParseInt(i.originalText) != Some(NumberOf(i.value)))
    ensures NumberOf(i.value) < 0 ==> r.value == "0" && r.changed == i.changed
    ensures NumberOf(i.value) > 999 ==> r.value == "999" && r.changed == i.changed
  {
    var n := NumberOf(i.value);
    if n < 0 then
      ParseIdText(0);
      assert IdText(0) == "0";
      i.(value := "0")
    else if n > 999 then
      ParseIdText(999);
      assert IdText(999) == "999";
      i.(value := "999")
    else
      i.(changed := Some(n) != ParseInt(i.originalText))
  }

  /** A clamped value is not re-compared: an input that read as unchanged
      stays unmarked although its value now differs from the original. */
  lemma ClampLeavesMarkStale()
    ensures var i := StockInput("1", "40", "-3", "5", false);
            InputEdited(i).value == "0" && !InputEdited(i).changed && ParseInt(i.originalText) == Some(5)
  {
    var i := StockInput("1", "40", "-3", "5", false);
    ParseIdText(-3);
    ParseIdText(5);
  }

  /** The input is skipped by the save: no numeric product id, or a size that
      is empty or the text "undefined". */
  predicate Sendable(i: StockInput) {
    ParseInt(i.productIdText).Some? && i.size != "" && i.size != "undefined"
  }

  function EntryOf(i: StockInput): Inventory.StockEntry
    requires Sendable(i)
  {
    Inventory.StockEntry(ParseInt(i.productIdText), Some(i.size), Some(NumberOf(i.value)))
  }

  /** The `updates` array `handleSaveStock` sends: one entry per input that
      is not skipped, in panel order. */
  function SendableEntries(inputs: seq<StockInput>): (r: seq<Inventory.StockEntry>)
    ensures |r| <= |inputs|
    ensures forall k :: 0 <= k < |inputs| && Sendable(inputs[k]) ==> EntryOf(inputs[k]) in r
    ensures forall e :: e in r ==> exists k :: 0 <= k < |inputs| && Sendable(inputs[k]) && e == EntryOf(inputs[k])
  {
    if inputs == [] then []
    else
      var rest := SendableEntries(inputs[1..]);
      assert forall k :: 1 <= k < |inputs| ==> inputs[1..][k - 1] == inputs[k];
      (if Sendable(inputs[0]) then [EntryOf(inputs[0])] else []) + rest
  }

  /** `parseInt(dataset.originalValue || 0)`. */
  function OriginalOf(i: StockInput): Option<int> {
    if i.originalText == "" then Some(0) else ParseInt(i.originalText)
  }

  predicate Differs(i: StockInput) {
    Some(NumberOf(i.value)) != OriginalOf(i)
  }

  predicate HasChanges(inputs: seq<StockInput>) {
    exists k :: 0 <= k < |inputs| && Sendable(inputs[k]) && Differs(inputs[k])
  }

  datatype SaveOutcome = NothingValid | NothingChanged | Send(updates: seq<Inventory.StockEntry>)

  /** The decision `handleSaveStock` takes before calling the server. */
  function SaveDecision(inputs: seq<StockInput>): SaveOutcome {
    var es := SendableEntries(inputs);
    if es == [] then NothingValid else if !HasChanges(inputs) then NothingChanged else Send(es)
  }

  /** `handleSaveStock` up to the request: one pass over the inputs that
      collects the entries and notes whether any of them changed. */
  method BuildStockBatch(inputs: seq<StockInput>) returns (outcome: SaveOutcome)
    ensures outcome == SaveDecision(inputs)
    ensures outcome.Send? ==> |outcome.updates| > 0 && HasChanges(inputs)
  {
    var rev: seq<Inventory.StockEntry> := [];
    var hasChanges := false;
    var i := |inputs|;
    while i > 0
      invariant 0 <= i <= |inputs|
      invariant rev == SendableEntries(inputs[i..])
      invariant hasChanges <==> exists k :: i <= k < |inputs| && Sendable(inputs[k]) && Differs(inputs[k])
    {
      i := i - 1;
      assert inputs[i..][1..] == inputs[i + 1..];
      if Sendable(inputs[i]) {
        if Differs(inputs[i]) {
          hasChanges := true;
        }
        rev := [EntryOf(inputs[i])] + rev;
      }
    }
    assert inputs[0..] == inputs;
    if rev == [] {
      return NothingValid;
    }
    if !hasChanges {
      return NothingChanged;
    }
    return Send(rev);
  }

  /** The server's check of one entry, read on the input it came from: a
      product id other than 0 that exists, a label that is not blank once
      trimmed, and a number that is not negative. */
  predicate InputAccepted(products: map<int, Product>, i: StockInput)
    requires Sendable(i)
  {
    && ParseInt(i.productIdText).value != 0 && ParseInt(i.productIdText).value in products
    && Trim(i.size) != "" && NumberOf(i.value) >= 0
  }

  /** The server commits the batch the panel sends exactly when it accepts
      every input that is not skipped. */
  lemma SavedBatchAcceptedIff(products: map<int, Product>, inputs: seq<StockInput>)
    ensures Inventory.BatchAccepted(products, SendableEntries(inputs)) <==>
            forall k :: 0 <= k < |inputs| && Sendable(inputs[k]) ==> InputAccepted(products, inputs[k])
  {
    var es := SendableEntries(inputs);
    if Inventory.BatchAccepted(products, es) {
      forall k | 0 <= k < |inputs| && Sendable(inputs[k]) ensures InputAccepted(products, inputs[k]) {
        var j :| 0 <= j < |es| && es[j] == EntryOf(inputs[k]);
        assert Inventory.EntryAccepted(products, es[j]);
      }
    }
    if forall k :: 0 <= k < |inputs| && Sendable(inputs[k]) ==> InputAccepted(products, inputs[k]) {
      forall j | 0 <= j < |es| ensures Inventory.EntryAccepted(products, es[j]) {
        assert es[j] in es;
        var k :| 0 <= k < |inputs| && Sendable(inputs[k]) && es[j] == EntryOf(inputs[k]);
        assert InputAccepted(products, inputs[k]);
      }
    }
  }

  /** An input still showing its original number. */
  predicate Untouched(i: StockInput) {
    i.value == i.originalText && ParseInt(i.value).Some?
  }

  lemma UntouchedDoesNotDiffer(i: StockInput)
    requires Untouched(i)
    ensures !Differs(i)
  {
  }

  /** Every input of a freshly rendered panel shows its original number. */
  lemma {:induction false} RenderedUntouched(ps: seq<Listing>)
    ensures forall k :: 0 <= k < |RenderStockInputs(ps)| ==> Untouched(RenderStockInputs(ps)[k])
  {
    if ps != [] {
      RenderedUntouched(ps[1..]);
      InputsUntouched(ps[0]);
      AppendUntouched(InputsOf(ps[0]), RenderStockInputs(ps[1..]));
    }
  }

  lemma InputsUntouched(l: Listing)
    ensures forall k :: 0 <= k < |InputsOf(l)| ==> Untouched(InputsOf(l)[k])
  {
    forall k | 0 <= k < |InputsOf(l)| ensures Untouched(InputsOf(l)[k]) {
      ParseIdText(l.sizes[k].stock);
    }
  }

  lemma AppendUntouched(a: seq<StockInput>, b: seq<StockInput>)
    requires forall k :: 0 <= k < |a| ==> Untouched(a[k])
    requires forall k :: 0 <= k < |b| ==> Untouched(b[k])
    ensures forall k :: 0 <= k < |a + b| ==> Untouched((a + b)[k])
  {
    forall k | |a| <= k < |a + b| ensures Untouched((a + b)[k]) {
      assert (a + b)[k] == b[k - |a|];
    }
  }

  /** A panel rendered from a list and saved without edits reports that
      there is nothing to save. */
  lemma UneditedPanelHasNoChanges(ps: seq<Listing>)
    ensures !HasChanges(RenderStockInputs(ps))
  {
    var inputs := RenderStockInputs(ps);
    RenderedUntouched(ps);
    forall k | 0 <= k < |inputs| ensures !Differs(inputs[k]) {
      UntouchedDoesNotDiffer(inputs[k]);
    }
  }

  // ---------------------------------------------------------------------
  // The new-product form

  /** The fields of the form as typed; `price` is `parseFloat` of the price
      field, in cents, `None` for `NaN`. */
  datatype ProductForm = ProductForm(title: string, brand: string, price: Option<int>, imageUrl: string)

  /** One `.size-item` row: the label field as typed, and `parseInt` of the
      stock field (`None` for `NaN`). */
  datatype SizeRow = SizeRow(number: string, stock: Option<int>)

  /** The product object the page sends. */
  function FormProduct(f: ProductForm): Inventory.ProductInput {
    Inventory.ProductInput(Some(Trim(f.title)), Some(Trim(f.brand)), f.price, Some(Trim(f.imageUrl)))
  }

  /** No required field is blank and the price is neither `NaN` nor 0. */
  predicate FormComplete(f: ProductForm) {
    Trim(f.title) != "" && Trim(f.brand) != "" && f.price.Some? && f.price.value != 0 && Trim(f.imageUrl) != ""
  }

  function SizeOfRow(r: SizeRow): Inventory.SizeInput {
    Inventory.SizeInput(Some(Trim(r.number)), Some(r.stock.GetOr(0)))
  }

  /** The sizes the form sends: one per row whose label is not blank, in
      form order. */
  function NewSizesOf(rows: seq<SizeRow>): (r: seq<Inventory.SizeInput>)
    ensures |r| <= |rows|
    ensures forall s :: s in r <==> exists k :: 0 <= k < |rows| && Trim(rows[k].number) != "" && s == SizeOfRow(rows[k])
  {
    if rows == [] then []
    else
      var rest := NewSizesOf(rows[1..]);
      assert forall k :: 1 <= k < |rows| ==> rows[1..][k - 1] == rows[k];
      (if Trim(rows[0].number) != "" then [SizeOfRow(rows[0])] else []) + rest
  }

  /** No two rows with a non-blank label carry the same label. */
  predicate RowsDistinct(rows: seq<SizeRow>) {
    forall i, j :: 0 <= i < j < |rows| && Trim(rows[i].number) != "" ==> Trim(rows[i].number) != Trim(rows[j].number)
  }

  /** `label` appears, not blank, on two different rows. */
  predicate Repeated(rows: seq<SizeRow>, name: string) {
    name != "" && exists i, j :: 0 <= i < j < |rows| && Trim(rows[i].number) == name && Trim(rows[j].number) == name
  }

  /** The size loop of `handleSaveNewProduct`: rows with a blank label are
      passed over, and the loop stops at the first label already collected. */
  method CollectNewSizes(rows: seq<SizeRow>) returns (repeated: Option<string>, sizes: seq<Inventory.SizeInput>)
    ensures repeated.None? <==> RowsDistinct(rows)
    ensures repeated.None? ==> sizes == NewSizesOf(rows)
    ensures repeated.Some? ==> Repeated(rows, repeated.value)
  {
    sizes := [];
    for i := 0 to |rows|
      invariant sizes == NewSizesOf(rows[..i])
      invariant RowsDistinct(rows[..i])
    {
      var name := Trim(rows[i].number);
      CollectStep(rows, i, sizes);
      if name != "" {
        if Collected(sizes, name) {
          return Some(name), sizes;
        }
        sizes := sizes + [SizeOfRow(rows[i])];
      }
    }
    assert rows[..|rows|] == rows;
    return None, sizes;
  }

  /** Some collected size carries `name`. */
  predicate Collected(sizes: seq<Inventory.SizeInput>, name: string) {
    exists s :: s in sizes && s.size == Some(name)
  }

  /** One turn of the size loop: a label already collected is a repeated
      one; otherwise the rows read so far stay distinct and the collected
      sizes grow by this row's, if its label is not blank. */
  lemma CollectStep(rows: seq<SizeRow>, i: int, sizes: seq<Inventory.SizeInput>)
    requires 0 <= i < |rows| && sizes == NewSizesOf(rows[..i]) && RowsDistinct(rows[..i])
    ensures Trim(rows[i].number) != "" && Collected(sizes, Trim(rows[i].number)) ==>
              Repeated(rows, Trim(rows[i].number)) && !RowsDistinct(rows)
    ensures Trim(rows[i].number) != "" && !Collected(sizes, Trim(rows[i].number)) ==>
              RowsDistinct(rows[..i + 1]) && NewSizesOf(rows[..i + 1]) == sizes + [SizeOfRow(rows[i])]
    ensures Trim(rows[i].number) == "" ==>
              RowsDistinct(rows[..i + 1]) && NewSizesOf(rows[..i + 1]) == sizes
  {
    var name := Trim(rows[i].number);
    if name != "" && Collected(sizes, name) {
      CollectRepeat(rows, i, sizes);
    } else {
      CollectFresh(rows, i, sizes);
    }
  }

  /** A label already collected reappears at row `i`: the rows repeat it. */
  lemma CollectRepeat(rows: seq<SizeRow>, i: int, sizes: seq<Inventory.SizeInput>)
    requires 0 <= i < |rows| && sizes == NewSizesOf(rows[..i])
    requires Trim(rows[i].number) != "" && Collected(sizes, Trim(rows[i].number))
    ensures Repeated(rows, Trim(rows[i].number)) && !RowsDistinct(rows)
  {
    var name := Trim(rows[i].number);
    var done := rows[..i];
    CollectedLabels(done, name);
    var k :| 0 <= k < |done| && Trim(done[k].number) == name;
    assert done[k] == rows[k];
    RepeatedBreaksDistinct(rows, k, i);
  }

  /** Row `i` is blank or carries a new label: the prefix stays distinct. */
  lemma CollectFresh(rows: seq<SizeRow>, i: int, sizes: seq<Inventory.SizeInput>)
    requires 0 <= i < |rows| && sizes == NewSizesOf(rows[..i]) && RowsDistinct(rows[..i])
    requires !(Trim(rows[i].number) != "" && Collected(sizes, Trim(rows[i].number)))
    ensures RowsDistinct(rows[..i + 1])
    ensures NewSizesOf(rows[..i + 1]) == if Trim(rows[i].number) == "" then sizes else sizes + [SizeOfRow(rows[i])]
  {
    var name := Trim(rows[i].number);
    var done := rows[..i];
    CollectedLabels(done, name);
    assert rows[..i + 1] == done + [rows[i]];
    NewSizesSnoc(done, rows[i]);
    RowsDistinctSnoc(done, rows[i]);
  }

  /** A label is among those collected exactly when a row carries it. */
  lemma CollectedLabels(rows: seq<SizeRow>, name: string)
    ensures Collected(NewSizesOf(rows), name) <==>
            name != "" && exists k :: 0 <= k < |rows| && Trim(rows[k].number) == name
  {
    if name != "" && exists k :: 0 <= k < |rows| && Trim(rows[k].number) == name {
      var k :| 0 <= k < |rows| && Trim(rows[k].number) == name;
      assert SizeOfRow(rows[k]) in NewSizesOf(rows);
    }
  }

  lemma RowsDistinctSnoc(rows: seq<SizeRow>, r: SizeRow)
    ensures RowsDistinct(rows + [r]) <==>
            RowsDistinct(rows) && forall k :: 0 <= k < |rows| && Trim(rows[k].number) != "" ==> Trim(rows[k].number) != Trim(r.number)
  {
    var t := rows + [r];
    assert forall k :: 0 <= k < |rows| ==> t[k] == rows[k];
    assert t[|rows|] == r;
  }

  lemma RepeatedBreaksDistinct(rows: seq<SizeRow>, k: int, i: int)
    requires 0 <= k < i < |rows| && Trim(rows[k].number) != "" && Trim(rows[k].number) == Trim(rows[i].number)
    ensures Repeated(rows, Trim(rows[i].number)) && !RowsDistinct(rows)
  {
  }

  datatype FormOutcome = MissingField | BadPrice | DuplicateSize(repeated: string) | NoSizes
                       | Submit(product: Inventory.ProductInput, sizes: seq<Inventory.SizeInput>)

  /** `handleSaveNewProduct` up to the request: the field checks, then the
      size rows, then the check that at least one size was given. */
  method PrepareNewProduct(f: ProductForm, rows: seq<SizeRow>) returns (outcome: FormOutcome)
    ensures outcome == MissingField <==> !FormComplete(f)
    ensures outcome == BadPrice <==> FormComplete(f) && f.price.value < 0
    ensures outcome.DuplicateSize? <==> FormComplete(f) && f.price.value > 0 && !RowsDistinct(rows)
    ensures outcome.DuplicateSize? ==> Repeated(rows, outcome.repeated)
    ensures outcome == NoSizes <==> FormComplete(f) && f.price.value > 0 && RowsDistinct(rows) && NewSizesOf(rows) == []
    ensures outcome.Submit? ==> outcome.product == FormProduct(f) && outcome.sizes == NewSizesOf(rows)
  {
    if !FormComplete(f) {
      return MissingField;
    }
    if f.price.value <= 0 {
      return BadPrice;
    }
    var repeated, sizes := CollectNewSizes(rows);
    if repeated.Some? {
      return DuplicateSize(repeated.value);
    }
    if sizes == [] {
      return NoSizes;
    }
    return Submit(FormProduct(f), sizes);
  }

  lemma {:induction false} NewSizesSnoc(rows: seq<SizeRow>, r: SizeRow)
    ensures NewSizesOf(rows + [r]) == NewSizesOf(rows) + (if Trim(r.number) != "" then [SizeOfRow(r)] else [])
  {
    if rows == [] {
      assert [r][1..] == [];
    } else {
      assert (rows + [r])[1..] == rows[1..] + [r];
      NewSizesSnoc(rows[1..], r);
    }
  }

  lemma RowsDistinctTail(rows: seq<SizeRow>)
    requires rows != [] && RowsDistinct(rows)
    ensures RowsDistinct(rows[1..])
    ensures Trim(rows[0].number) != "" ==> forall s :: s in NewSizesOf(rows[1..]) ==> s.size != Some(Trim(rows[0].number))
  {
    assert forall k :: 0 <= k < |rows[1..]| ==> rows[1..][k] == rows[k + 1];
  }

  lemma PrependDistinctSize(s: Inventory.SizeInput, rest: seq<Inventory.SizeInput>)
    requires forall i, j :: 0 <= i < j < |rest| ==> rest[i].size != rest[j].size
    requires forall q :: q in rest ==> q.size != s.size
    ensures forall i, j :: 0 <= i < j < |[s] + rest| ==> ([s] + rest)[i].size != ([s] + rest)[j].size
  {
    var r := [s] + rest;
    forall i, j | 0 <= i < j < |r| ensures r[i].size != r[j].size {
      assert r[j] == rest[j - 1];
      if i > 0 {
        assert r[i] == rest[i - 1];
      }
    }
  }

  /** The labels of the sizes sent are distinct when the rows are. */
  lemma {:induction false} SentLabelsDistinct(rows: seq<SizeRow>)
    requires RowsDistinct(rows)
    ensures forall i, j :: 0 <= i < j < |NewSizesOf(rows)| ==> NewSizesOf(rows)[i].size != NewSizesOf(rows)[j].size
  {
    if rows != [] {
      RowsDistinctTail(rows);
      SentLabelsDistinct(rows[1..]);
      if Trim(rows[0].number) != "" {
        PrependDistinctSize(SizeOfRow(rows[0]), NewSizesOf(rows[1..]));
      }
    }
  }

  /** The server's cleaning leaves sizes that are already trimmed and not
      blank as they are. */
  lemma {:induction false} CleanSizesKeepsClean(s: seq<Inventory.SizeInput>)
    requires forall k :: 0 <= k < |s| ==> s[k].size.Some? && IsTrimmed(s[k].size.value) && s[k].size.value != ""
    ensures |Inventory.CleanSizes(s)| == |s|
    ensures forall k :: 0 <= k < |s| ==> Inventory.CleanSizes(s)[k] == Inventory.NewSize(s[k].size.value, s[k].stock.GetOr(0))
  {
    if s != [] {
      assert forall k :: 0 <= k < |s[1..]| ==> s[1..][k] == s[k + 1];
      CleanSizesKeepsClean(s[1..]);
      TrimOfTrimmed(s[0].size.value);
      CleanedCons(s, Inventory.CleanSizes(s[1..]));
    }
  }

  lemma CleanedCons(s: seq<Inventory.SizeInput>, rest: seq<Inventory.NewSize>)
    requires s != [] && forall k :: 0 <= k < |s| ==> s[k].size.Some? && s[k].size.value != ""
    requires Inventory.CleanText(s[0].size) == s[0].size.value
    requires rest == Inventory.CleanSizes(s[1..]) && |rest| == |s| - 1
    requires forall k :: 0 <= k < |s| - 1 ==> rest[k] == Inventory.NewSize(s[k + 1].size.value, s[k + 1].stock.GetOr(0))
    ensures Inventory.CleanSizes(s) == [Inventory.NewSize(s[0].size.value, s[0].stock.GetOr(0))] + rest
    ensures forall k :: 0 <= k < |s| ==> Inventory.CleanSizes(s)[k] == Inventory.NewSize(s[k].size.value, s[k].stock.GetOr(0))
  {
    var r := [Inventory.NewSize(s[0].size.value, s[0].stock.GetOr(0))] + rest;
    forall k | 0 < k < |s| ensures r[k] == Inventory.NewSize(s[k].size.value, s[k].stock.GetOr(0)) {
      assert r[k] == rest[k - 1];
    }
  }

  lemma TrimOfTrimmed(s: string)
    requires IsTrimmed(s)
    ensures Trim(s) == s
  {
    assert TrimStart(s) == s;
    assert TrimEnd(s) == s;
  }

  /** A request the form submits passes every check of the create route
      except the one for a title already in use: the product fields are
      valid, and the sizes survive the server's cleaning unchanged, with
      distinct labels, so the inserts cannot break the unique key. */
  lemma SubmittedFormPassesServerChecks(f: ProductForm, rows: seq<SizeRow>)
    requires FormComplete(f) && f.price.value > 0 && RowsDistinct(rows) && NewSizesOf(rows) != []
    ensures Inventory.ProductFieldsValid(FormProduct(f))
    ensures Inventory.CleanSizes(NewSizesOf(rows)) != []
    ensures Inventory.DistinctLabels(Inventory.CleanSizes(NewSizesOf(rows)))
    ensures forall products: map<int, Product> ::
              Inventory.CreateRejected(Some(FormProduct(f)), Some(NewSizesOf(rows)), products)
              <==> Inventory.TitleTaken(products, Trim(f.title))
  {
    TrimIdempotent(f.title);
    TrimIdempotent(f.brand);
    TrimIdempotent(f.imageUrl);
    var s := NewSizesOf(rows);
    forall k | 0 <= k < |s| ensures s[k].size.Some? && IsTrimmed(s[k].size.value) && s[k].size.value != "" {
      assert s[k] in s;
    }
    CleanSizesKeepsClean(s);
    SentLabelsDistinct(rows);
  }
}

=== FILE: text.dfy ===
/** String helpers the server and the browser script rely on: JavaScript's
    `trim`, ASCII lower-casing, `includes`, the character-code order in which
    labels and brands are sorted, and the decimal text and `parseInt` of
    integers. */
module Text {
  import opened Wrappers

  /** The characters `String.prototype.trim` strips: white space and line
      terminators as ECMAScript defines them. */
  predicate IsSpace(c: char) {
    || c == ' ' || c == '\t' || c == '\n' || c == '\r'
    || c == '\U{B}' || c == '\U{C}' || c == '\U{A0}' || c == '\U{1680}'
    || ('\U{2000}' <= c <= '\U{200A}')
    || c == '\U{2028}' || c == '\U{2029}' || c == '\U{202F}' || c == '\U{205F}'
    || c == '\U{3000}' || c == '\U{FEFF}'
  }

  /** `q` is the infix of `s` that starts at index `i`. */
  predicate OccursAt(s: string, q: string, i: int) {
    0 <= i <= |s| - |q| && s[i..i + |q|] == q
  }

  /** Neither starts nor ends with white space. */
  predicate IsTrimmed(s: string) {
    s == [] || (!IsSpace(s[0]) && !IsSpace(s[|s| - 1]))
  }

  function TrimStart(s: string): (r: string)
    ensures |r| <= |s|
    ensures r == [] || !IsSpace(r[0])
  {
    if |s| > 0 && IsSpace(s[0]) then TrimStart(s[1..]) else s
  }

  function TrimEnd(s: string): (r: string)
    ensures |r| <= |s|
    ensures r == [] || !IsSpace(r[|r| - 1])
    ensures r != [] ==> r[0] == s[0]
  {
    if |s| > 0 && IsSpace(s[|s| - 1]) then TrimEnd(s[..|s| - 1]) else s
  }

  /** `s.trim()`: the longest infix of `s` that neither starts nor ends with
      white space (see `TrimCutsSpace`). */
  function Trim(s: string): (r: string)
    ensures IsTrimmed(r) && |r| <= |s|
  {
    TrimEnd(TrimStart(s))
  }

  /** `TrimStart` drops a prefix made of white space only. */
  lemma {:induction false} TrimStartCutsSpace(s: string)
    ensures TrimStart(s) == s[|s| - |TrimStart(s)|..]
    ensures forall i :: 0 <= i < |s| - |TrimStart(s)| ==> IsSpace(s[i])
  {
    if |s| > 0 && IsSpace(s[0]) {
      TrimStartCutsSpace(s[1..]);
    }
  }

  /** `TrimEnd` drops a suffix made of white space only. */
  lemma {:induction false} TrimEndCutsSpace(s: string)
    ensures TrimEnd(s) == s[..|TrimEnd(s)|]
    ensures forall i :: |TrimEnd(s)| <= i < |s| ==> IsSpace(s[i])
  {
    if |s| > 0 && IsSpace(s[|s| - 1]) {
      TrimEndCutsSpace(s[..|s| - 1]);
    }
  }

  /** What `trim` promises: the result is an infix of `s`, and it is empty
      exactly when `s` is white space only. */
  lemma TrimCutsSpace(s: string)
    ensures exists i :: OccursAt(s, Trim(s), i)
    ensures Trim(s) == "" <==> forall i :: 0 <= i < |s| ==> IsSpace(s[i])
  {
    var t := TrimStart(s);
    TrimStartCutsSpace(s);
    TrimEndCutsSpace(t);
    assert OccursAt(s, Trim(s), |s| - |t|);
  }

  /** Trimming what is already trimmed changes nothing, so trimming twice is
      trimming once. */
  lemma TrimIdempotent(s: string)
    ensures Trim(Trim(s)) == Trim(s)
  {
    var t := Trim(s);
    assert TrimStart(t) == t;
  }

  function LowerChar(c: char): char {
    if 'A' <= c <= 'Z' then (c as int + 32) as char else c
  }

  /** `s.toLowerCase()` on the ASCII letters. */
  function Lower(s: string): (r: string)
    ensures |r| == |s| && forall i :: 0 <= i < |s| ==> r[i] == LowerChar(s[i])
  {
    seq(|s|, i requires 0 <= i < |s| => LowerChar(s[i]))
  }

  /** `s.includes(q)`: `q` occurs in `s` at some position. */
  predicate Contains(s: string, q: string) {
    exists i :: 0 <= i <= |s| - |q| && OccursAt(s, q, i)
  }

  /** The order in which `ORDER BY size` and `Array.prototype.sort` arrange
      strings, modelled as lexicographic order on character codes. */
  predicate LexLe(a: string, b: string)
    decreases |a|
  {
    |a| == 0 || (|b| > 0 && (a[0] < b[0] || (a[0] == b[0] && LexLe(a[1..], b[1..]))))
  }

  lemma {:induction false} LexLeReflexive(a: string)
    ensures LexLe(a, a)
    decreases |a|
  {
    if |a| > 0 { LexLeReflexive(a[1..]); }
  }

  lemma {:induction false} LexLeAntisymmetric(a: string, b: string)
    requires LexLe(a, b) && LexLe(b, a)
    ensures a == b
    decreases |a|
  {
    if |a| > 0 {
      LexLeAntisymmetric(a[1..], b[1..]);
      assert a == [a[0]] + a[1..] && b == [b[0]] + b[1..];
    }
  }

  lemma {:induction false} LexLeTransitive(a: string, b: string, c: string)
    requires LexLe(a, b) && LexLe(b, c)
    ensures LexLe(a, c)
    decreases |a|
  {
    if |a| > 0 && a[0] == b[0] && b[0] == c[0] {
      LexLeTransitive(a[1..], b[1..], c[1..]);
    }
  }

  lemma {:induction false} LexLeTotal(a: string, b: string)
    ensures LexLe(a, b) || LexLe(b, a)
    decreases |a|
  {
    if |a| > 0 && |b| > 0 && a[0] == b[0] {
      LexLeTotal(a[1..], b[1..]);
    }
  }

  /** Strictly increasing in `LexLe`: sorted and without repetitions. */
  predicate StrictlySorted(r: seq<string>) {
    forall i, j :: 0 <= i < j < |r| ==> LexLe(r[i], r[j]) && r[i] != r[j]
  }

  predicate IsLeast(m: string, s: set<string>) {
    m in s && forall x :: x in s ==> LexLe(m, x)
  }

  lemma {:induction false} LeastExists(s: set<string>)
    requires s != {}
    ensures exists m :: IsLeast(m, s)
    decreases |s|
  {
    var x :| x in s;
    LexLeReflexive(x);
    if s - {x} == {} {
      assert s == {x};
      assert IsLeast(x, s);
    } else {
      LeastExists(s - {x});
      var m :| IsLeast(m, s - {x});
      LexLeTotal(x, m);
      if LexLe(x, m) {
        forall y | y in s ensures LexLe(x, y) {
          if y != x { LexLeTransitive(x, m, y); }
        }
        assert IsLeast(x, s);
      } else {
        assert IsLeast(m, s);
      }
    }
  }

  lemma LeastUnique(s: set<string>)
    ensures forall a, b :: IsLeast(a, s) && IsLeast(b, s) ==> a == b
  {
    forall a, b | IsLeast(a, s) && IsLeast(b, s) ensures a == b {
      LexLeAntisymmetric(a, b);
    }
  }

  /** Putting the least element in front of a sorted listing of the others
      gives a sorted listing of the whole set. */
  lemma PrependLeast(s: set<string>, m: string, rest: seq<string>)
    requires IsLeast(m, s)
    requires |rest| == |s - {m}| && (forall x :: x in rest <==> x in s - {m}) && StrictlySorted(rest)
    ensures |[m] + rest| == |s| && (forall x :: x in [m] + rest <==> x in s) && StrictlySorted([m] + rest)
  {
    var r := [m] + rest;
    assert forall j :: 0 <= j < |rest| ==> rest[j] in s - {m};
    forall i, j | 0 <= i < j < |r| ensures LexLe(r[i], r[j]) && r[i] != r[j] {
      if i > 0 {
        assert r[i] == rest[i - 1] && r[j] == rest[j - 1];
      } else {
        assert r[j] == rest[j - 1];
      }
    }
  }

  /** The elements of a finite set of strings, sorted and each once: the
      model of `[...new Set(xs)].sort()` and of `ORDER BY` on a unique key. */
  function SortStrings(s: set<string>): (r: seq<string>)
    ensures |r| == |s|
    ensures forall x :: x in r <==> x in s
    ensures StrictlySorted(r)
    decreases |s|
  {
    if s == {} then []
    else
      LeastExists(s);
      LeastUnique(s);
      var m :| IsLeast(m, s);
      var rest := SortStrings(s - {m});
      PrependLeast(s, m, rest);
      [m] + rest
  }

  predicate IsDigit(c: char) {
    '0' <= c <= '9'
  }

  function DigitChar(d: nat): (c: char)
    requires d < 10
    ensures IsDigit(c)
  {
    ('0' as int + d) as char
  }

  function DigitValue(c: char): nat
    requires IsDigit(c)
  {
    c as int - '0' as int
  }

  /** The decimal digits of `n`, as a template literal renders a
      non-negative integer. */
  function DecimalText(n: nat): (r: string)
    ensures |r| > 0 && forall i :: 0 <= i < |r| ==> IsDigit(r[i])
  {
    if n < 10 then [DigitChar(n)] else DecimalText(n / 10) + [DigitChar(n % 10)]
  }

  /** `${n}` for an integer `n`. */
  function IdText(n: int): string {
    if n < 0 then "-" + DecimalText(-n) else DecimalText(n)
  }

  /** The longest prefix of `s` made of decimal digits. */
  function DigitPrefix(s: string): (r: string)
    ensures |r| <= |s| && r == s[..|r|]
    ensures forall i :: 0 <= i < |r| ==> IsDigit(r[i])
    ensures |r| < |s| ==> !IsDigit(s[|r|])
  {
    if |s| > 0 && IsDigit(s[0]) then [s[0]] + DigitPrefix(s[1..]) else []
  }

  function DigitsValue(d: string): nat
    requires forall i :: 0 <= i < |d| ==> IsDigit(d[i])
  {
    if d == [] then 0 else DigitsValue(d[..|d| - 1]) * 10 + DigitValue(d[|d| - 1])
  }

  function Signed(negative: bool, v: int): int {
    if negative then -v else v
  }

  /** `parseInt(s)` in base ten: leading white space is skipped, one sign is
      read, then the longest run of digits; `None` stands for `NaN`. */
  function ParseInt(s: string): Option<int> {
    var t := TrimStart(s);
    var negative := |t| > 0 && t[0] == '-';
    var body := if |t| > 0 && (t[0] == '-' || t[0] == '+') then t[1..] else t;
    var d := DigitPrefix(body);
    if d == [] then None else Some(Signed(negative, DigitsValue(d)))
  }

  lemma {:induction false} DigitsValueOfDecimal(n: nat)
    ensures DigitsValue(DecimalText(n)) == n
  {
    if n >= 10 {
      var d := DecimalText(n / 10);
      DigitsValueOfDecimal(n / 10);
      assert (d + [DigitChar(n % 10)])[..|d|] == d;
    }
  }

  lemma {:induction false} DigitPrefixOfDigits(s: string)
    requires forall i :: 0 <= i < |s| ==> IsDigit(s[i])
    ensures DigitPrefix(s) == s
  {
    if |s| > 0 {
      DigitPrefixOfDigits(s[1..]);
      assert s == [s[0]] + s[1..];
    }
  }

  lemma ParseDigits(d: string)
    requires |d| > 0 && forall i :: 0 <= i < |d| ==> IsDigit(d[i])
    ensures ParseInt(d) == Some(DigitsValue(d))
  {
    assert !IsSpace(d[0]);
    assert TrimStart(d) == d;
    assert d[0] != '-' && d[0] != '+';
    DigitPrefixOfDigits(d);
  }

  lemma ParseSignedDigits(d: string)
    requires |d| > 0 && forall i :: 0 <= i < |d| ==> IsDigit(d[i])
    ensures ParseInt("-" + d) == Some(Signed(true, DigitsValue(d)))
  {
    var t := "-" + d;
    assert t[0] == '-' && t[1..] == d;
    assert TrimStart(t) == t;
    DigitPrefixOfDigits(d);
    assert DigitPrefix(t[1..]) == d;
  }

  /** Reading back the text a template literal makes of an integer gives the
      integer again. */
  lemma ParseIdText(n: int)
    ensures ParseInt(IdText(n)) == Some(n)
  {
    if n < 0 {
      DigitsValueOfDecimal(-n);
      ParseSignedDigits(DecimalText(-n));
    } else {
      DigitsValueOfDecimal(n);
      ParseDigits(DecimalText(n));
    }
  }
}

=== FILE: wrappers.dfy ===
/** The optional value used throughout the model for JavaScript's
    `undefined`/`null` inputs and `NaN` results of parsing. */
module Wrappers {

  datatype Option<+T> = None | Some(value: T) {

    /** The wrapped value, or `default` when there is none: the model of
        `x || default` on a parsed number, and of `x ? x : default`. */
    function GetOr(default: T): T {
      match this
      case Some(v) => v
      case None => default
    }
  }
}
